=== FILE: README.md ===
# Durable catalog model

A Dafny model of MongoDB's durable catalog (`DurableCatalogImpl`), the storage
layer directory that maps each catalog handle (`RecordId`) to an entry holding
a storage ident and a tenant namespace, keeps each collection's metadata
(options and index list: name, spec, ident, ready flag, multikey flag), skips
feature documents, and allocates new idents from a random token `_rand` and a
counter `_next`.

The model is a functional state machine. A `Catalog` value holds the entry
cache, the durable documents keyed by `RecordId`, the set of feature-document
records, the allocator `(rand, next)` together with the set of idents seen
since start-up, and the two layout flags
`directoryPerDb` and `directoryForIndexes`. Each operation is a pure function
from a catalog to an `Outcome`: the new catalog, a `StatusWith` result with a
typed error code, the rollback hooks registered with the enclosing
transaction, and the requests sent to the storage engine.

The invariant `CatalogModel.Valid` ties this together:

- the cache agrees with the durable documents, one entry per handle;
- feature documents are never entries;
- no ident or namespace is named by two documents;
- every index list is well formed;
- every cataloged ident has been seen by the allocator;
- the allocator is sound: every ident seen since start-up that ends in the
  current token carries a counter below `next`, so the next ident issued is
  neither cataloged nor seen before.

Every operation is proved to keep `Valid`, and its hooks are proved to undo
its change to the entry cache (`Rollback.Undoes`). Transaction abort is modelled
by `Rollback.Abort`. An abort also gives back a valid catalog, even when the
token was re-drawn inside the aborted transaction (`Rollback.AbortRestores`).

Modules:

- `Base`: `Option`, `Status`, `StatusWith`, error codes.
- `Digits`: decimal rendering and parsing of the counter.
- `IdentAllocator`: the `(rand, next)` allocator and its seen idents, uniqueness of issued
  idents, re-drawing the token when foreign idents collide with it.
- `CatalogModel`: the state, the invariant, index lookup.
- `Rollback`: the transaction hooks (`AddIdentChange` and the hooks of
  rename and drop) and abort.
- `Lifecycle`: ident allocation, create, createIndex, import, rename, drop,
  resume rebuild, orphaned and internal idents.
- `Accessors`: the read accessors.
- `InitScan`: start-up scan of the catalog record store and the ordered listing.
- `Properties`: properties that relate several operations.
- `Findings`: the token collision check as declared, with a counterexample.

Interfaces outside the catalog become parameters:

- The record store's choice of a new `RecordId` is an `insert: StatusWith<RecordId>`
  argument. On success it must be a handle not already in use.
- The storage engine's answers are an `engine: EngineCall -> Status` argument.
- `_newRand` is a `tokens: seq<string>` argument. Only the collision check
  constrains which token is taken.
- The set of seen idents is a record kept by the model, not a member of the
  class. It holds every ident issued, found by the start-up scan, imported or
  claimed as an orphan since start-up. The class needs no such record: its
  token never changes after start-up and `_next` only grows. The model also
  re-draws the token when an imported or orphaned ident ends with it, and the
  new token must avoid every seen ident. So even then no ident is handed out
  twice in one run. Nor can an abort bring back an ident that ends with the
  new token, since every restored ident was seen before the transaction began.
- The start-up scan is a sequence of `(RecordId, RawRecord)` pairs in `RecordId` order.

This model works from the class declaration (`durable_catalog_impl.h`); shapes
the declaration does not fix are choices of this model. A collection or index ident is
`[db "/"] kind ("/" | "-") counter "-" rand`. An internal ident is
`"internal-" ["resumable-index-build-"] counter "-" rand`. An orphaned ident is
cataloged under `local.orphan.<ident>`. A feature document is recognised by a
leading `isFeatureDoc: true` field. Every uniqueness proof depends only on the
counter and the token: the ident ends with `counter "-" rand` and the part
before the counter does not end in a digit.

`dropAndRecreateIndexIdentForResume` is declared without a catalog handle and
with the ident as a parameter. The model therefore drops and recreates the
physical index under the same ident and leaves the catalog untouched.

## Model

| member | source | states |
|---|---|---|
| `IdentAllocator.Issue` | src/mongo/db/storage/durable_catalog_impl.h:174-179 | an issued ident starts with its stem, ends with "-" and the token, decodes back to the counter it was issued with; the counter advances by one and the ident joins the seen idents |
| `IdentAllocator.IssueIsFresh` | src/mongo/db/storage/durable_catalog_impl.h:174-179 | with a sound allocator, the issued ident is neither among the known idents nor among the idents seen before, and the allocator stays sound once it becomes known |
| `IdentAllocator.DistinctCountersGiveDistinctIdents` | src/mongo/db/storage/durable_catalog_impl.h:197-200 | two idents issued under one token with different counters differ, whatever their stems |
| `IdentAllocator.SuccessiveIssuesDiffer` | src/mongo/db/storage/durable_catalog_impl.h:174-181 | two idents issued one after the other differ, so no (token, counter) pair is reused |
| `IdentAllocator.FirstFree` | src/mongo/db/storage/durable_catalog_impl.h:183-188 | the token chosen from the random stream is one of the drawn tokens and collides with no known ident |
| `IdentAllocator.AdmitForeign` | src/mongo/db/storage/durable_catalog_impl.h:183-188 | when idents not issued by the allocator arrive, they join the seen idents and the counter is kept; the token is re-drawn exactly when one of them ends with it, to one that no known, arriving or seen ident ends with; the allocator stays sound over old and new idents |
| `IdentAllocator.SoundMonotone` | src/mongo/db/storage/durable_catalog_impl.h:197-200 | soundness survives forgetting known or seen idents and advancing the counter under the same token |
| `Digits.ParseNatToString` | src/mongo/db/storage/durable_catalog_impl.h:200 | the decimal rendering of a counter parses back to the counter |
| `Digits.TrailingDigitsAfterStem` | src/mongo/db/storage/durable_catalog_impl.h:174-179 | the trailing digit run of a stem that does not end in a digit, followed by digits, is exactly those digits |
| `CatalogModel.FindIndexOffset` | src/mongo/db/storage/durable_catalog_impl.h:146 | the offset of the first index in the entry's index list that has the name, or -1 exactly when no index has that name |
| `CatalogModel.KnownOfInsert` | src/mongo/db/storage/durable_catalog_impl.h:162-167 | storing a document under a new handle adds exactly its idents to the known idents |
| `CatalogModel.KnownOfRemove` | src/mongo/db/storage/durable_catalog_impl.h:172 | the known idents are those of the other documents together with those of the removed one |
| `Rollback.RollbackAppend` | src/mongo/db/storage/durable_catalog_impl.h:155 | rolling back two batches of hooks registered in order is rolling back the later batch, then the earlier |
| `Rollback.UndoesCompose` | src/mongo/db/storage/durable_catalog_impl.h:155 | hooks that undo two successive changes, run newest first, undo both |
| `Rollback.ApplyUndo` | src/mongo/db/storage/durable_catalog_impl.h:155 | a RemoveEntry hook removes its handle, a ReinsertEntry hook puts its entry back, a RestoreNamespace hook resets only that entry's namespace; every other handle is untouched |
| `Rollback.Abort` | src/mongo/db/storage/durable_catalog_impl.h:155 | abort restores the durable documents and feature documents, keeps the current allocator, and gives back the starting cache whenever the hooks undo the transaction's cache changes |
| `Rollback.AbortRestores` | src/mongo/db/storage/durable_catalog_impl.h:155 | aborting a transaction whose hooks undo its cache changes restores the starting catalog except for the allocator, which is not rolled back; the result is valid whenever the allocator where the transaction stopped is sound and has seen everything seen at its start, even if the token was re-drawn in between |
| `Lifecycle.UniqueIdentStem` | src/mongo/db/storage/durable_catalog_impl.h:174-179 | the stem of a new ident starts with the database directory when directoryPerDb is set and with the kind otherwise, and does not end in a digit |
| `Lifecycle.NewUniqueIdent` | src/mongo/db/storage/durable_catalog_impl.h:174-179 | a new collection or index ident is unknown to the catalog and was not seen before in this run, carries the directory or kind prefix of the layout, is not an internal ident under the flat layout, advances the counter by one and joins the seen idents |
| `Lifecycle.AddEntry` | src/mongo/db/storage/durable_catalog_impl.h:162-164 | fails with NamespaceExists on a cataloged namespace and with the record store's code on a failed insert, and a failed insert still consumes one ident; on success the new handle was unused, its entry names the namespace and an ident neither cataloged nor seen before, the document has no indexes, and the AddIdentChange hook removes the handle |
| `Lifecycle.AddEntryKeepsValid` | src/mongo/db/storage/durable_catalog_impl.h:155-164 | _addEntry keeps the catalog valid, its hooks undo its cache change, and a namespace conflict leaves the catalog as it was |
| `Lifecycle.CreateCollection` | src/mongo/db/storage/durable_catalog_impl.h:110-114 | adds the entry, then asks the engine for a record store under the new ident, which was neither cataloged nor seen before; on success the document written holds the namespace, the new ident, the options and an empty index list, the counter advances by one and the ident joins the seen idents; the engine's failure is returned while the entry stays for the abort to remove |
| `Lifecycle.CreateCollectionKeepsValid` | src/mongo/db/storage/durable_catalog_impl.h:110-114 | createCollection keeps the catalog valid and its hooks undo its cache change |
| `Lifecycle.AppendIndex` | src/mongo/db/storage/durable_catalog_impl.h:116-119 | the existing indexes and the document's namespace, ident and options are kept, one index is appended with the name, spec and ident given, not ready and not multikey, and the document's ident set grows by exactly that ident |
| `Lifecycle.AppendIndexWellFormed` | src/mongo/db/storage/durable_catalog_impl.h:116-119 | appending an index with a new name and a new ident keeps the index list well formed |
| `Lifecycle.CreateIndex` | src/mongo/db/storage/durable_catalog_impl.h:116-119 | NamespaceNotFound for an unknown handle, IndexAlreadyExists for a taken name, otherwise one engine request under an ident neither cataloged nor seen before, which joins the seen idents; the index is recorded only when the engine succeeds |
| `Lifecycle.BuildIndex` | src/mongo/db/storage/durable_catalog_impl.h:116-119 | with a known handle and a free name: exactly one engine request under a new ident, the counter advanced by one, and the document extended by the index exactly when the engine succeeds; the cache is untouched |
| `Lifecycle.CreateIndexKeepsValid` | src/mongo/db/storage/durable_catalog_impl.h:116-119 | createIndex keeps the catalog valid and leaves the entry cache unchanged |
| `Lifecycle.ImportCollection` | src/mongo/db/storage/durable_catalog_impl.h:121-125 | succeeds exactly when the namespace is free, the supplied index list is well formed, no supplied ident is known and the insert succeeds; the supplied idents are kept verbatim, join the seen idents, and the hook removes the new handle |
| `Lifecycle.ImportCollectionKeepsValid` | src/mongo/db/storage/durable_catalog_impl.h:165-167 | _importEntry keeps the catalog valid and the counter, only adds to the seen idents, and its hooks undo its cache change |
| `Lifecycle.RenameCollection` | src/mongo/db/storage/durable_catalog_impl.h:127-130 | succeeds exactly when the handle exists and no other entry has the target namespace; on success only that entry's namespace changes, in cache and document; failures change nothing |
| `Lifecycle.RenameKeepsValid` | src/mongo/db/storage/durable_catalog_impl.h:168-171 | replacing one entry's namespace by a free one keeps the catalog valid and the known idents unchanged |
| `Lifecycle.RenameCollectionKeepsValid` | src/mongo/db/storage/durable_catalog_impl.h:127-130 | renameCollection keeps the catalog valid, leaves the allocator alone, and its hook restores the old namespace |
| `Lifecycle.DropCollection` | src/mongo/db/storage/durable_catalog_impl.h:132 | removes exactly the given handle from cache and documents, every other entry unchanged; NamespaceNotFound for an unknown handle |
| `Lifecycle.DropCollectionKeepsValid` | src/mongo/db/storage/durable_catalog_impl.h:172 | _removeEntry keeps the catalog valid and its hook puts the same entry back |
| `Lifecycle.DropAndRecreateIndexIdentForResume` | src/mongo/db/storage/durable_catalog_impl.h:134-137 | the catalog is untouched; the engine drops the ident, and only if that succeeds is an index recreated under the same ident; the status is the first failure |
| `Lifecycle.NewOrphanedIdent` | src/mongo/db/storage/durable_catalog_impl.h:103 | DuplicateKey when the ident is in use, NamespaceExists when its orphan namespace is taken; otherwise the same ident is returned, cataloged and added to the seen idents, never reallocated; the token may be re-drawn when the ident ends with it |
| `Lifecycle.NewOrphanedIdentKeepsValid` | src/mongo/db/storage/durable_catalog_impl.h:103 | newOrphanedIdent keeps the catalog valid and the counter, only adds to the seen idents, and its hook removes the new handle |
| `Lifecycle.NewInternalIdentWithStem` | src/mongo/db/storage/durable_catalog_impl.h:181 | an internal ident starts with the internal prefix and stem, is unknown to the catalog and was not seen before, and changes only the allocator: the counter advances and the ident joins the seen idents |
| `Lifecycle.IsInternalIdent` | src/mongo/db/storage/durable_catalog_impl.h:93 | an ident recognised as internal starts with neither kind name, so under the flat layout no collection or index ident is internal (stated on `Lifecycle.NewUniqueIdent`) |
| `Lifecycle.IsResumableIndexBuildIdent` | src/mongo/db/storage/durable_catalog_impl.h:95 | every resumable-index-build ident is an internal ident |
| `Lifecycle.NewInternalIdent` | src/mongo/db/storage/durable_catalog_impl.h:107 | a new internal ident is unknown to the catalog, was not seen before, and is recognised as internal and not as a resumable-index-build ident |
| `Lifecycle.NewInternalResumableIndexBuildIdent` | src/mongo/db/storage/durable_catalog_impl.h:108 | a new resumable-index-build ident is unknown to the catalog, was not seen before, and is recognised as both internal and resumable |
| `Accessors.GetEntry` | src/mongo/db/storage/durable_catalog_impl.h:67 | the entry of a present handle carries that handle and its document's ident and namespace |
| `Accessors.GetCollectionIdent` | src/mongo/db/storage/durable_catalog_impl.h:69 | the collection ident of a present handle is known and named by no other document |
| `Accessors.GetIndexIdents` | src/mongo/db/storage/durable_catalog_impl.h:75 | the index idents in list order, pairwise distinct and different from the collection ident |
| `Accessors.IsIndexPresent` | src/mongo/db/storage/durable_catalog_impl.h:146 | true exactly when some index of the entry has the name |
| `Accessors.GetIndexIdent` | src/mongo/db/storage/durable_catalog_impl.h:71-73 | requires the index to exist; the ident of the index of that name, one of the index idents and not the collection ident |
| `Accessors.IsIndexInEntry` | src/mongo/db/storage/durable_catalog_impl.h:77 | true exactly when the ident is one of the entry's index idents |
| `Accessors.IndexIdentCount` | src/mongo/db/storage/durable_catalog_impl.h:144 | an index list with distinct idents names as many idents as it has indexes |
| `Accessors.GetTotalIndexCount` | src/mongo/db/storage/durable_catalog_impl.h:144 | the number of indexes equals the number of distinct idents the document names besides the collection's |
| `Accessors.IsIndexReady` | src/mongo/db/storage/durable_catalog_impl.h:148 | the ready flag of the index of that name |
| `Accessors.IsIndexMultikey` | src/mongo/db/storage/durable_catalog_impl.h:139-142 | the multikey flag of the index of that name |
| `InitScan.Init` | src/mongo/db/storage/durable_catalog_impl.h:63 | every scanned feature document is skipped and every other record becomes an entry and a document; the counter starts at zero and the seen idents are exactly the cataloged ones; the corrected collision check: the token collides with no known ident, collection or index, and is kept when it did not collide; a free token is needed only when the start-up token collides; a consistent scan gives a valid catalog |
| `InitScan.IsFeatureDocument` | src/mongo/db/storage/durable_catalog_impl.h:190-191 | a record is a feature document only when its first field is the feature-document field, and then exactly when that field is true |
| `InitScan.ScanRecords` | src/mongo/db/storage/durable_catalog_impl.h:63 | every scanned record lands either among the feature documents or, with its document, among the catalog documents; nothing else is added, and the cache has one entry per document |
| `InitScan.ScanTokenAvailable` | src/mongo/db/storage/durable_catalog_impl.h:183-188 | when the start-up token collides with a known ident, some drawn token collides with none |
| `InitScan.ScanFreeIsCatalogFree` | src/mongo/db/storage/durable_catalog_impl.h:183-188 | a token that no scanned document's ident ends with collides with none of the catalog's known idents |
| `InitScan.ScanConsistentGivesUnique` | src/mongo/db/storage/durable_catalog_impl.h:63 | documents that obey the catalog's rules on disk give a catalog with unique idents and namespaces |
| `InitScan.SortedIds` | src/mongo/db/storage/durable_catalog_impl.h:65 | lists exactly the given handles, in strictly increasing order |
| `InitScan.GetAllCatalogEntries` | src/mongo/db/storage/durable_catalog_impl.h:65 | lists one entry per document that is not a feature document, in handle order, with its ident and namespace, and misses none |
| `InitScan.ListingIsCache` | src/mongo/db/storage/durable_catalog_impl.h:65 | whenever the cache agrees with the documents and no feature document is cataloged, which `InitScan.Init` gives for every scan, the listing holds exactly the cached entries |
| `Properties.CreateThenAbort` | src/mongo/db/storage/durable_catalog_impl.h:155 | creating a collection and aborting removes the handle again and restores the catalog except for the allocator, whose counter and seen idents are not rolled back |
| `Properties.CreateRenameThenAbort` | src/mongo/db/storage/durable_catalog_impl.h:155 | create then rename in one transaction, then abort, restores the catalog except for the allocator, whose counter and seen idents are not rolled back |
| `Properties.DropThenAbort` | src/mongo/db/storage/durable_catalog_impl.h:132 | dropping then aborting puts the same entry back under the same handle |
| `Properties.RenamePreservesIdents` | src/mongo/db/storage/durable_catalog_impl.h:127-130 | a successful rename keeps the handle, the collection ident and the index idents |
| `Properties.FirstIndex` | src/mongo/db/storage/durable_catalog_impl.h:116-119 | the first index built on a collection is its only index, present, not ready, not multikey, with an ident other than the collection's |
| `Properties.CreateThenIndex` | src/mongo/db/storage/durable_catalog_impl.h:110-114 | createCollection then createIndex: the new collection is valid with no indexes, and after the index build its only index is present, not ready, not multikey, under an ident other than the collection's |
| `Properties.DropOrphanThenAbort` | src/mongo/db/storage/durable_catalog_impl.h:103 | drop, then an orphan claim that may re-draw the token, then abort: the catalog comes back as it was except for the allocator, and it is valid, so the next ident issued is not a restored one |
| `Properties.IssuedIdentsPairwiseDistinct` | src/mongo/db/storage/durable_catalog_impl.h:107-114 | a collection ident, then an internal ident, then a resumable-index-build ident are pairwise distinct and all new |
| `Properties.DroppedIdentStaysIssued` | src/mongo/db/storage/durable_catalog_impl.h:132 | after a collection is created and dropped, the catalog no longer knows its ident but the ident stays among the seen idents |
| `Properties.OrphanClaimThenInternalIsNew` | src/mongo/db/storage/durable_catalog_impl.h:103-107 | after an orphan claim, which may re-draw the token, the next internal ident is none of the idents seen before the claim |
| `Findings.HasEntryCollidingWithRand` | src/mongo/db/storage/durable_catalog_impl.h:185-188 | true exactly when some cached entry's ident ends with the token |
| `Findings.ChooseRandAsWritten` | src/mongo/db/storage/durable_catalog_impl.h:185-188 | the token kept by the check as declared collides with no cached entry's ident, and is the current token when that one did not |
| `Findings.EntryCheckWeaker` | src/mongo/db/storage/durable_catalog_impl.h:185-188 | the entry idents are among the known idents, so a collision the declared check reports is one the full check reports |
| `Findings.EntryOnlyCheckAdmitsReissue` | src/mongo/db/storage/durable_catalog_impl.h:185-188 | a catalog whose index ident ends with the token passes the declared check, and the next index ident issued is that existing ident |

## Left out

- BSON encoding of catalog documents, `getCatalogEntry`, `_findEntry`, `getMetaData` and `putMetaData`: serialisation belongs to another component; a document is a plain `MetaData` value.
- `getAllIdents`, `isUserDataIdent`, `isCollectionIdent`: classifiers and listings over the same state that the invariant already covers; not modelled.
- `getFilesystemPathForDb` and the exact on-disk path and ident strings: path and ident strings beyond the database-directory prefix under directoryPerDb are a choice of this model.
- `getRecordStore`, the record store and the storage engine: parameters (`insert`, `engine`); physical objects are only the requests recorded in `Outcome.calls`.
- Mutexes (`_randLock`, `_catalogIdToEntryMapLock`) and concurrent callers: operations are sequential.
- `_newRand`: a stream of tokens passed in; randomness is not modelled.
- `setRand_forTest`, `getRand_forTest`: test hooks.
- `Accessors.IsIndexMultikey`: the multikey paths that `isIndexMultikey` also reports are not modelled; only the multikey flag is.
- `Lifecycle.NewUniqueIdent`: the counter is an unbounded `nat`, so the 64-bit wrap-around of `_next` is not modelled.
- `Lifecycle.RenameCollection`: the caller's `MetaData` argument is not modelled; only the namespace in the stored document changes.
- `Lifecycle.ImportCollection`: storage metadata and import options are not modelled; re-drawing the token when a supplied ident ends with it is a choice of this model.
- `Lifecycle.CreateCollection`: the `allocateDefaultSpace` argument is not modelled; how much space the storage engine reserves for a new record store is outside the catalog.
- `Lifecycle.IsInternalIdent`: database names are not escaped in the directory part of an ident. Under directoryPerDb a database named `internal-…` therefore gives collection and index idents that are recognised as internal. Only the flat layout keeps the two apart.
- `Lifecycle.NewOrphanedIdent`: re-drawing the token when the ident ends with it, cataloging the ident under the namespace `local.orphan.<ident>`, and failing with NamespaceExists when that namespace is taken are choices of this model; the declaration fixes none of them.
- `Lifecycle.DropAndRecreateIndexIdentForResume`: the physical index is recreated under the same ident and the index list is not touched.
- The cluster server parameter op observer test and the encrypted-collection shell test: they exercise other components, not the catalog.

## Findings

| source | as written | input that shows it | evidently intended | confidence | as-written member | corrected member |
|---|---|---|---|---|---|---|
| src/mongo/db/storage/durable_catalog_impl.h:185-188 | the check on a new random token is declared over the cached entries, whose idents are collection idents only | one collection "collection-3-Q" with one index "index-0-R", token "R", counter 0: no entry ident ends with "R", so "R" is kept, and the next index ident is "index-0-R" again | test the token against every known ident, index idents included | low, not executed; inferred from the declaration; the definition is not modelled | `Findings.EntryOnlyCheckAdmitsReissue` | `InitScan.Init` |

=== FILE: accessors.dfy ===
/** The read accessors of the durable catalog: lookups on the entry cache and
    on one entry's index list. Looking up a handle the catalog does not hold
    is a caller error, so the accessors require the handle to be present. */
module Accessors {
  import opened Base
  import opened CatalogModel

  /** getEntry: the cached entry of a handle, which agrees with its document. */
  function GetEntry(c: Catalog, id: RecordId): (e: Entry)
    requires Valid(c)
    requires id in c.entries
    ensures e.catalogId == id
    ensures e.ident == c.metadata[id].ident && e.ns == c.metadata[id].ns
  {
    c.entries[id]
  }

  /** getCollectionIdent: the ident of a handle's collection, named by no
      other entry's collection or index. */
  function GetCollectionIdent(c: Catalog, id: RecordId): (x: string)
    requires Valid(c)
    requires id in c.entries
    ensures x == c.metadata[id].ident
    ensures x in KnownIdents(c)
    ensures forall other | other in c.metadata && other != id :: x !in IdentSet(c.metadata[other])
  {
    KnownOfContains(c.metadata, id);
    c.entries[id].ident
  }

  /** getIndexIdents: the idents of a handle's indexes, in index order. They
      are pairwise distinct and differ from the collection's ident. */
  function GetIndexIdents(c: Catalog, id: RecordId): (r: seq<string>)
    requires Valid(c)
    requires id in c.entries
    ensures |r| == |c.metadata[id].indexes|
    ensures forall i | 0 <= i < |r| :: r[i] == c.metadata[id].indexes[i].ident
    ensures forall i, j | 0 <= i < j < |r| :: r[i] != r[j]
    ensures c.metadata[id].ident !in r
  {
    var ix := c.metadata[id].indexes;
    seq(|ix|, i requires 0 <= i < |ix| => ix[i].ident)
  }

  /** isIndexPresent: some index of the entry carries that name. */
  function IsIndexPresent(c: Catalog, id: RecordId, name: string): (b: bool)
    requires Valid(c)
    requires id in c.entries
    ensures b <==> exists i | 0 <= i < |c.metadata[id].indexes| :: c.metadata[id].indexes[i].name == name
  {
    FindIndexOffset(c.metadata[id], name) >= 0
  }

  /** getIndexIdent: the ident of the named index. The index must exist. */
  function GetIndexIdent(c: Catalog, id: RecordId, name: string): (x: string)
    requires Valid(c)
    requires id in c.entries
    requires IsIndexPresent(c, id, name)
    ensures exists i | 0 <= i < |c.metadata[id].indexes| ::
      c.metadata[id].indexes[i].name == name && c.metadata[id].indexes[i].ident == x
    ensures x in GetIndexIdents(c, id) && x != GetCollectionIdent(c, id)
  {
    var md := c.metadata[id];
    var k := FindIndexOffset(md, name);
    assert GetIndexIdents(c, id)[k] == md.indexes[k].ident;
    md.indexes[k].ident
  }

  /** isIndexInEntry: whether the ident is the ident of one of the entry's indexes. */
  function IsIndexInEntry(c: Catalog, id: RecordId, idxIdent: string): (b: bool)
    requires Valid(c)
    requires id in c.entries
    ensures b <==> idxIdent in GetIndexIdents(c, id)
    ensures b ==> idxIdent in IdentSet(c.metadata[id]) && idxIdent != GetCollectionIdent(c, id)
  {
    var ix := c.metadata[id].indexes;
    var found := exists i | 0 <= i < |ix| :: ix[i].ident == idxIdent;
    assert found ==> idxIdent in IdentSet(c.metadata[id]) by {
      if found {
        var i :| 0 <= i < |ix| && ix[i].ident == idxIdent;
        assert ix[i] in ix;
      }
    }
    found
  }

  /** Index idents that are pairwise distinct form a set as large as the index list. */
  lemma IdentsOfSnoc(s: seq<IndexMeta>, last: IndexMeta)
    ensures (set ix | ix in s + [last] :: ix.ident) == (set ix | ix in s :: ix.ident) + {last.ident}
  {
    var whole := set ix | ix in s + [last] :: ix.ident;
    var front := set ix | ix in s :: ix.ident;
    forall x | x in whole
      ensures x in front + {last.ident}
    {
      var ix :| ix in s + [last] && ix.ident == x;
    }
    assert last in s + [last];
    forall x | x in front
      ensures x in whole
    {
      var ix :| ix in s && ix.ident == x;
      assert ix in s + [last];
    }
  }

  lemma {:induction false} IndexIdentCount(s: seq<IndexMeta>)
    requires forall i, j | 0 <= i < j < |s| :: s[i].ident != s[j].ident
    ensures |set ix | ix in s :: ix.ident| == |s|
    decreases |s|
  {
    if |s| > 0 {
      var s' := s[..|s| - 1];
      var last := s[|s| - 1];
      IndexIdentCount(s');
      forall ix | ix in s'
        ensures ix.ident != last.ident
      {
        var i :| 0 <= i < |s'| && s'[i] == ix;
        assert s[i] == ix;
      }
      assert s == s' + [last];
      IdentsOfSnoc(s', last);
    }
  }

  /** getTotalIndexCount: the number of indexes of the entry, which is the
      number of distinct idents its document names besides the collection's. */
  function GetTotalIndexCount(c: Catalog, id: RecordId): (n: int)
    requires Valid(c)
    requires id in c.entries
    ensures n >= 0
    ensures n == |IdentSet(c.metadata[id])| - 1
  {
    var md := c.metadata[id];
    IndexIdentCount(md.indexes);
    forall ix | ix in md.indexes
      ensures ix.ident != md.ident
    {
      var i :| 0 <= i < |md.indexes| && md.indexes[i] == ix;
    }
    |md.indexes|
  }

  /** isIndexReady: whether the named index has finished building. The index
      must exist. */
  function IsIndexReady(c: Catalog, id: RecordId, name: string): (b: bool)
    requires Valid(c)
    requires id in c.entries
    requires IsIndexPresent(c, id, name)
    ensures exists i | 0 <= i < |c.metadata[id].indexes| ::
      c.metadata[id].indexes[i].name == name && c.metadata[id].indexes[i].ready == b
  {
    var md := c.metadata[id];
    md.indexes[FindIndexOffset(md, name)].ready
  }

  /** isIndexMultikey: whether the named index is multikey. The index must exist. */
  function IsIndexMultikey(c: Catalog, id: RecordId, name: string): (b: bool)
    requires Valid(c)
    requires id in c.entries
    requires IsIndexPresent(c, id, name)
    ensures exists i | 0 <= i < |c.metadata[id].indexes| ::
      c.metadata[id].indexes[i].name == name && c.metadata[id].indexes[i].multikey == b
  {
    var md := c.metadata[id];
    md.indexes[FindIndexOffset(md, name)].multikey
  }
}

=== FILE: allocator.dfy ===
/** The ident allocator of the durable catalog: a per-instance random token
    `rand` and a counter `next`, read and advanced together. An issued ident is
    `stem + <next> + "-" + rand`; the stem names the directory layout and the
    kind of object. The model also keeps `seen`, every ident met since
    start-up: issued by the allocator, found by the start-up scan, imported or
    claimed as an orphan. Uniqueness is stated against it, so it also covers
    idents that are no longer cataloged or that an abort brings back. */
module IdentAllocator {
  import opened Base
  import opened Digits

  datatype Allocator = Allocator(rand: string, next: nat, seen: set<string>)

  /** The result of one allocation: the ident and the advanced allocator. */
  datatype Issued = Issued(ident: string, alloc: Allocator)

  predicate EndsWith(s: string, suffix: string) {
    |suffix| <= |s| && s[|s| - |suffix|..] == suffix
  }

  predicate StartsWith(s: string, prefix: string) {
    |prefix| <= |s| && s[..|prefix|] == prefix
  }

  /** Some ident of `idents` ends with `token`: the collision test applied to a
      candidate random token. */
  predicate Collides(idents: set<string>, token: string) {
    exists x | x in idents :: EndsWith(x, token)
  }

  /** A stem may be followed directly by the counter digits. */
  predicate StemOk(stem: string) {
    |stem| == 0 || !IsDigit(stem[|stem| - 1])
  }

  function Compose(stem: string, counter: nat, rand: string): string {
    stem + NatToString(counter) + "-" + rand
  }

  /** Reads back the counter an ident was issued with under token `rand`, if
      the ident has the shape of one issued under that token. */
  function IssuedCounter(x: string, rand: string): Option<nat> {
    var tail := "-" + rand;
    if EndsWith(x, tail) then
      var d := TrailingDigits(x[..|x| - |tail|]);
      if |d| > 0 then Some(ParseDigits(d)) else None
    else None
  }

  /** The allocator is sound for a set of known idents when every known ident,
      and every ident it has seen, that ends with the current token was
      issued under it with a counter below `next`. Then the next issue can
      meet neither a known ident nor one seen before. */
  predicate Sound(known: set<string>, a: Allocator) {
    forall x | x in known + a.seen && EndsWith(x, a.rand) ::
      IssuedCounter(x, a.rand).Some? && IssuedCounter(x, a.rand).value < a.next
  }

  lemma IssuedCounterOfCompose(stem: string, n: nat, rand: string)
    requires StemOk(stem)
    ensures StartsWith(Compose(stem, n, rand), stem)
    ensures EndsWith(Compose(stem, n, rand), "-" + rand)
    ensures IssuedCounter(Compose(stem, n, rand), rand) == Some(n)
  {
    var ds := NatToString(n);
    var tail := "-" + rand;
    var x := Compose(stem, n, rand);
    assert x == (stem + ds) + tail;
    assert x[..|stem|] == stem;
    assert x[|x| - |tail|..] == tail;
    assert x[..|x| - |tail|] == stem + ds;
    TrailingDigitsAfterStem(stem, ds);
    ParseNatToString(n);
  }

  /** Issues one ident from stem `stem`, advances the counter and records the ident. */
  function Issue(a: Allocator, stem: string): (r: Issued)
    requires StemOk(stem)
    ensures r.alloc == Allocator(a.rand, a.next + 1, a.seen + {r.ident})
    ensures StartsWith(r.ident, stem)
    ensures EndsWith(r.ident, "-" + a.rand)
    ensures IssuedCounter(r.ident, a.rand) == Some(a.next)
  {
    IssuedCounterOfCompose(stem, a.next, a.rand);
    var x := Compose(stem, a.next, a.rand);
    Issued(x, Allocator(a.rand, a.next + 1, a.seen + {x}))
  }

  /** An ident issued by a sound allocator is new to the known idents and to
      every ident seen before it, and the allocator stays sound once that
      ident becomes known. */
  lemma IssueIsFresh(a: Allocator, stem: string, known: set<string>)
    requires StemOk(stem)
    requires Sound(known, a)
    ensures Issue(a, stem).ident !in known
    ensures Issue(a, stem).ident !in a.seen
    ensures Sound(known + {Issue(a, stem).ident}, Issue(a, stem).alloc)
  {
    var r := Issue(a, stem);
    assert EndsWith(r.ident, a.rand) by {
      assert r.ident[|r.ident| - |a.rand|..] == ("-" + a.rand)[1..];
    }
    assert r.ident !in known + a.seen;
    forall x | x in known + {r.ident} + r.alloc.seen && EndsWith(x, a.rand)
      ensures IssuedCounter(x, a.rand).Some? && IssuedCounter(x, a.rand).value < a.next + 1
    {
      if x != r.ident {
        assert x in known + a.seen;
      }
    }
  }

  /** Two idents issued under the same token with different counters differ,
      whatever their stems: no (token, counter) pair is used twice. */
  lemma DistinctCountersGiveDistinctIdents(stem1: string, stem2: string, n1: nat, n2: nat, rand: string)
    requires StemOk(stem1) && StemOk(stem2)
    requires n1 != n2
    ensures Compose(stem1, n1, rand) != Compose(stem2, n2, rand)
  {
    IssuedCounterOfCompose(stem1, n1, rand);
    IssuedCounterOfCompose(stem2, n2, rand);
  }

  /** Successive allocations never repeat an ident. */
  lemma SuccessiveIssuesDiffer(a: Allocator, stem1: string, stem2: string)
    requires StemOk(stem1) && StemOk(stem2)
    ensures Issue(a, stem1).ident != Issue(Issue(a, stem1).alloc, stem2).ident
  {
    DistinctCountersGiveDistinctIdents(stem1, stem2, a.next, a.next + 1, a.rand);
  }

  /** The first token of the random stream that no known ident ends with. */
  function FirstFree(known: set<string>, tokens: seq<string>): (t: string)
    requires exists i | 0 <= i < |tokens| :: !Collides(known, tokens[i])
    ensures !Collides(known, t)
    ensures t in tokens
    decreases |tokens|
  {
    if !Collides(known, tokens[0]) then tokens[0]
    else
      assert exists i | 0 <= i < |tokens[1..]| :: !Collides(known, tokens[1..][i]) by {
        var i :| 0 <= i < |tokens| && !Collides(known, tokens[i]);
        assert i != 0;
        assert tokens[1..][i - 1] == tokens[i];
      }
      FirstFree(known, tokens[1..])
  }

  /** Admits idents that were not issued by this allocator (found at startup,
      imported, or claimed as orphans) and records them as seen. While one of
      them ends with the current token, the token is re-drawn from `tokens`
      until it collides with no known ident and no ident seen so far. The
      counter is kept. */
  function AdmitForeign(a: Allocator, present: set<string>, foreign: set<string>, tokens: seq<string>): (r: Allocator)
    requires Collides(foreign, a.rand) ==>
      exists i | 0 <= i < |tokens| :: !Collides(present + foreign + a.seen, tokens[i])
    ensures r.next == a.next && r.seen == a.seen + foreign
    ensures !Collides(foreign, r.rand)
    ensures !Collides(foreign, a.rand) ==> r.rand == a.rand
    ensures Sound(present, a) ==> Sound(present + foreign, r)
  {
    if Collides(foreign, a.rand) then
      var t := FirstFree(present + foreign + a.seen, tokens);
      Allocator(t, a.next, a.seen + foreign)
    else a.(seen := a.seen + foreign)
  }

  /** Soundness survives a larger counter under the same token, and shrinking
      the set of known or seen idents. */
  lemma SoundMonotone(known: set<string>, known': set<string>, a: Allocator, a': Allocator)
    requires Sound(known, a)
    requires known' <= known && a'.seen <= a.seen
    requires a'.rand == a.rand && a'.next >= a.next
    ensures Sound(known', a')
  {
  }
}

=== FILE: base.dfy ===
/** Status values returned by the durable catalog, in the shape of the server's
    Status / StatusWith<T>: either a value or a typed error code. */
module Base {

  datatype Option<+T> = None | Some(value: T)

  /** The error codes the catalog reports. `Engine` carries a failure the storage
      engine or the record store reported, which the catalog propagates unchanged. */
  datatype ErrorCode =
    | NamespaceExists
    | NamespaceNotFound
    | IndexAlreadyExists
    | DuplicateKey
    | BadValue
    | Engine(code: int)

  /** A Status without a value. */
  datatype Status = OK | Error(code: ErrorCode)

  /** A Status carrying a value on success. */
  datatype StatusWith<+T> = Success(value: T) | Failure(code: ErrorCode) {
    function ToStatus(): (s: Status)
      ensures s.OK? <==> Success?
      ensures Failure? ==> s == Error(code)
    {
      match this
      case Success(_) => OK
      case Failure(e) => Error(e)
    }
  }
}

=== FILE: catalog.dfy ===
/** The state of the durable catalog: the in-memory entry cache keyed by
    catalog handle (RecordId), the durable catalog documents, the bookkeeping
    ("feature") documents that share the record store with them, the ident
    allocator and the two directory-layout flags. */
module CatalogModel {
  import opened Base
  import opened IdentAllocator

  /** A record location in the catalog's own record store. */
  type RecordId = int

  datatype TenantNamespace = TenantNamespace(tenant: Option<string>, db: string, coll: string)

  /** The cached projection of one catalog document. */
  datatype Entry = Entry(catalogId: RecordId, ident: string, ns: TenantNamespace)

  /** Collection options are carried, never interpreted, by the catalog. */
  datatype CollectionOptions = CollectionOptions(fields: seq<(string, string)>)

  datatype IndexSpec = IndexSpec(name: string, keyPattern: string)

  /** One index sub-record of a catalog document. */
  datatype IndexMeta = IndexMeta(name: string, spec: IndexSpec, ident: string, ready: bool, multikey: bool)

  /** A durable catalog document: namespace, collection ident, options, indexes. */
  datatype MetaData = MetaData(ns: TenantNamespace, ident: string, options: CollectionOptions, indexes: seq<IndexMeta>)

  datatype Catalog = Catalog(
    entries: map<RecordId, Entry>,
    metadata: map<RecordId, MetaData>,
    featureDocs: set<RecordId>,
    alloc: Allocator,
    directoryPerDb: bool,
    directoryForIndexes: bool)

  function DefaultOptions(): CollectionOptions {
    CollectionOptions([])
  }

  /** Every ident one catalog document names: its collection and its indexes. */
  function IdentSet(md: MetaData): set<string> {
    {md.ident} + set ix | ix in md.indexes :: ix.ident
  }

  /** Every ident named by some document of `m`. */
  function KnownOf(m: map<RecordId, MetaData>): set<string> {
    set id, x | id in m && x in IdentSet(m[id]) :: x
  }

  function KnownIdents(c: Catalog): set<string> {
    KnownOf(c.metadata)
  }

  predicate NamespaceInUse(c: Catalog, ns: TenantNamespace) {
    exists id | id in c.entries :: c.entries[id].ns == ns
  }

  /** Index names are distinct, index idents are distinct, and no index shares
      the collection's ident. */
  predicate IndexesWellFormed(md: MetaData) {
    && (forall i, j | 0 <= i < j < |md.indexes| ::
          md.indexes[i].name != md.indexes[j].name && md.indexes[i].ident != md.indexes[j].ident)
    && (forall i | 0 <= i < |md.indexes| :: md.indexes[i].ident != md.ident)
  }

  /** The cache holds exactly one entry per catalog document, and it agrees
      with that document. */
  predicate CacheMatchesDurable(c: Catalog) {
    && c.entries.Keys == c.metadata.Keys
    && forall id | id in c.entries :: c.entries[id] == Entry(id, c.metadata[id].ident, c.metadata[id].ns)
  }

  /** No ident is named twice across the catalog and no namespace is cataloged twice. */
  predicate Unique(m: map<RecordId, MetaData>) {
    && (forall id | id in m :: IndexesWellFormed(m[id]))
    && (forall a, b | a in m && b in m && a != b ::
          IdentSet(m[a]) !! IdentSet(m[b]) && m[a].ns != m[b].ns)
  }

  /** The catalog invariant. Every cataloged ident has been seen by the
      allocator, and the allocator is sound for them. */
  predicate Valid(c: Catalog) {
    && CacheMatchesDurable(c)
    && c.featureDocs !! c.metadata.Keys
    && Unique(c.metadata)
    && KnownIdents(c) <= c.alloc.seen
    && Sound(KnownIdents(c), c.alloc)
  }

  lemma KnownOfInsert(m: map<RecordId, MetaData>, id: RecordId, md: MetaData)
    requires id !in m
    ensures KnownOf(m[id := md]) == KnownOf(m) + IdentSet(md)
  {
    var m' := m[id := md];
    forall x | x in KnownOf(m')
      ensures x in KnownOf(m) + IdentSet(md)
    {
      var k :| k in m' && x in IdentSet(m'[k]);
      if k != id {
        assert x in KnownOf(m);
      }
    }
    forall x | x in KnownOf(m) + IdentSet(md)
      ensures x in KnownOf(m')
    {
      if x in IdentSet(md) {
        assert id in m' && x in IdentSet(m'[id]);
      } else {
        var k :| k in m && x in IdentSet(m[k]);
        assert k in m' && x in IdentSet(m'[k]);
      }
    }
  }

  lemma KnownOfRemove(m: map<RecordId, MetaData>, id: RecordId)
    requires id in m
    ensures KnownOf(m) == KnownOf(m - {id}) + IdentSet(m[id])
  {
    var m' := m - {id};
    assert m == m'[id := m[id]];
    KnownOfInsert(m', id, m[id]);
  }

  /** Replacing one document by one that names the same idents plus `extra`. */
  lemma KnownOfUpdate(m: map<RecordId, MetaData>, id: RecordId, md: MetaData, extra: set<string>)
    requires id in m
    requires IdentSet(md) == IdentSet(m[id]) + extra
    ensures KnownOf(m[id := md]) == KnownOf(m) + extra
  {
    KnownOfRemove(m, id);
    assert m[id := md] == (m - {id})[id := md];
    KnownOfInsert(m - {id}, id, md);
  }

  lemma KnownOfContains(m: map<RecordId, MetaData>, id: RecordId)
    requires id in m
    ensures IdentSet(m[id]) <= KnownOf(m)
  {
    forall x | x in IdentSet(m[id])
      ensures x in KnownOf(m)
    {
    }
  }

  /** The position of the index named `name` in the document's index list, or
      -1 when there is none (the catalog document's findIndexOffset). */
  function FindIndexOffset(md: MetaData, name: string): (k: int)
    ensures -1 <= k < |md.indexes|
    ensures k >= 0 ==> md.indexes[k].name == name
    ensures k >= 0 ==> forall i | 0 <= i < k :: md.indexes[i].name != name
    ensures k == -1 <==> forall i | 0 <= i < |md.indexes| :: md.indexes[i].name != name
    decreases |md.indexes|
  {
    if |md.indexes| == 0 then -1
    else
      var k := FindIndexOffset(md.(indexes := md.indexes[..|md.indexes| - 1]), name);
      if k >= 0 then k
      else if md.indexes[|md.indexes| - 1].name == name then |md.indexes| - 1
      else -1
  }
}

=== FILE: digits.dfy ===
/** Decimal rendering of the allocator counter inside an ident, and the
    decoding that recovers it. The decoding exists only to prove that two
    idents issued with different counters are different strings. */
module Digits {

  predicate IsDigit(ch: char) {
    '0' <= ch <= '9'
  }

  predicate AllDigits(s: string) {
    forall i | 0 <= i < |s| :: IsDigit(s[i])
  }

  function DigitChar(d: nat): (ch: char)
    requires d < 10
    ensures IsDigit(ch)
    ensures DigitValue(ch) == d
  {
    (48 + d) as char
  }

  function DigitValue(ch: char): nat
    requires IsDigit(ch)
  {
    ch as int - 48
  }

  /** The decimal representation of `n`, most significant digit first. */
  function NatToString(n: nat): (s: string)
    ensures |s| > 0
    ensures AllDigits(s)
    decreases n
  {
    if n < 10 then [DigitChar(n)] else NatToString(n / 10) + [DigitChar(n % 10)]
  }

  /** The value of a string of decimal digits. */
  function ParseDigits(s: string): nat
    requires AllDigits(s)
    decreases |s|
  {
    if |s| == 0 then 0 else ParseDigits(s[..|s| - 1]) * 10 + DigitValue(s[|s| - 1])
  }

  /** Parsing the rendering of a counter gives the counter back. */
  lemma {:induction false} ParseNatToString(n: nat)
    ensures ParseDigits(NatToString(n)) == n
    decreases n
  {
    var s := NatToString(n);
    if n < 10 {
      assert s[..|s| - 1] == [];
    } else {
      ParseNatToString(n / 10);
      assert s[..|s| - 1] == NatToString(n / 10);
    }
  }

  /** The longest suffix of `s` made only of digits. */
  function TrailingDigits(s: string): (d: string)
    ensures |d| <= |s|
    ensures d == s[|s| - |d|..]
    ensures AllDigits(d)
    ensures |d| < |s| ==> !IsDigit(s[|s| - |d| - 1])
    decreases |s|
  {
    if |s| == 0 || !IsDigit(s[|s| - 1]) then []
    else TrailingDigits(s[..|s| - 1]) + [s[|s| - 1]]
  }

  lemma TrailingDigitsSnoc(s: string)
    requires |s| > 0 && IsDigit(s[|s| - 1])
    ensures TrailingDigits(s) == TrailingDigits(s[..|s| - 1]) + [s[|s| - 1]]
  {
  }

  /** A prefix that does not end in a digit, followed by digits: the trailing
      digit run is exactly the digits. */
  lemma {:induction false} TrailingDigitsAfterStem(stem: string, ds: string)
    requires |stem| == 0 || !IsDigit(stem[|stem| - 1])
    requires AllDigits(ds)
    ensures TrailingDigits(stem + ds) == ds
    decreases |ds|
  {
    if |ds| == 0 {
      assert stem + ds == stem;
    } else {
      var s := stem + ds;
      var front := ds[..|ds| - 1];
      assert s[..|s| - 1] == stem + front;
      assert s[|s| - 1] == ds[|ds| - 1];
      assert AllDigits(front) && IsDigit(s[|s| - 1]);
      TrailingDigitsAfterStem(stem, front);
      TrailingDigitsSnoc(s);
      assert ds == front + [ds[|ds| - 1]];
    }
  }
}

=== FILE: findings.dfy ===
/** The startup collision check on the random token, as the header declares it:
    it looks at the cached entries, whose idents are collection idents only.
    Index idents live in the durable documents and are not consulted, so a
    token that an index ident already ends with can survive the check, and the
    counter then reissues that index ident. The corrected check, over every
    ident the catalog knows, is the one InitScan.Init and
    IdentAllocator.AdmitForeign use. */
module Findings {
  import opened Base
  import opened IdentAllocator
  import opened CatalogModel
  import opened Lifecycle
  import opened Digits

  /** The idents the cached entries name: one collection ident per entry. */
  function EntryIdents(c: Catalog): set<string> {
    set id | id in c.entries :: c.entries[id].ident
  }

  /** The check as declared: does some cached entry's ident end with `rand`? */
  function HasEntryCollidingWithRand(c: Catalog, rand: string): (b: bool)
    ensures b <==> exists id | id in c.entries :: EndsWith(c.entries[id].ident, rand)
  {
    var b := Collides(EntryIdents(c), rand);
    assert b ==> exists id | id in c.entries :: EndsWith(c.entries[id].ident, rand);
    assert (exists id | id in c.entries :: EndsWith(c.entries[id].ident, rand)) ==> b by {
      if exists id | id in c.entries :: EndsWith(c.entries[id].ident, rand) {
        var id :| id in c.entries && EndsWith(c.entries[id].ident, rand);
        assert c.entries[id].ident in EntryIdents(c);
      }
    }
    b
  }

  /** The token kept at startup by the check as declared: the current one
      unless an entry collides, otherwise the first token no entry collides with. */
  function ChooseRandAsWritten(c: Catalog, rand: string, tokens: seq<string>): (r: string)
    requires HasEntryCollidingWithRand(c, rand) ==>
      exists i | 0 <= i < |tokens| :: !HasEntryCollidingWithRand(c, tokens[i])
    ensures !HasEntryCollidingWithRand(c, r)
    ensures !HasEntryCollidingWithRand(c, rand) ==> r == rand
  {
    if HasEntryCollidingWithRand(c, rand) then FirstFree(EntryIdents(c), tokens) else rand
  }

  /** On a consistent catalog the declared check never reports a collision the
      full check would miss: it is weaker, never stronger. */
  lemma EntryCheckWeaker(c: Catalog, rand: string)
    requires CacheMatchesDurable(c)
    ensures EntryIdents(c) <= KnownIdents(c)
    ensures HasEntryCollidingWithRand(c, rand) ==> Collides(KnownIdents(c), rand)
  {
    forall x | x in EntryIdents(c)
      ensures x in KnownIdents(c)
    {
      var id :| id in c.entries && c.entries[id].ident == x;
      assert x in IdentSet(c.metadata[id]);
    }
  }

  /** A catalog with one collection, "collection-3-Q", holding one index whose
      ident is "index-0-R", with the startup token "R" and the counter at zero. */
  function Witness(): Catalog {
    var ns := TenantNamespace(None, "test", "c");
    var spec := IndexSpec("a_1", "a");
    var md := MetaData(ns, "collection-3-Q", DefaultOptions(), [IndexMeta("a_1", spec, "index-0-R", true, false)]);
    Catalog(map[1 := Entry(1, "collection-3-Q", ns)], map[1 := md], {}, Allocator("R", 0, {}), false, false)
  }

  lemma WitnessEntryIdents()
    ensures CacheMatchesDurable(Witness())
    ensures EntryIdents(Witness()) == {"collection-3-Q"}
  {
    var c := Witness();
    assert c.entries.Keys == {1};
  }

  lemma WitnessKnowsIndexIdent()
    ensures "index-0-R" in KnownIdents(Witness())
  {
    var c := Witness();
    assert c.metadata[1].indexes[0].ident == "index-0-R";
    assert "index-0-R" in IdentSet(c.metadata[1]);
  }

  lemma IssueIndexZero()
    ensures Issue(Allocator("R", 0, {}), "index-").ident == "index-0-R"
  {
    assert NatToString(0) == "0";
  }

  /** The counterexample: the declared check keeps "R" (no entry ident ends
      with it), yet an index ident does, and the next index ident issued is
      exactly that existing ident. The full check rejects "R". */
  lemma EntryOnlyCheckAdmitsReissue()
    ensures var c := Witness();
      && CacheMatchesDurable(c)
      && ChooseRandAsWritten(c, "R", []) == "R"
      && Collides(KnownIdents(c), "R")
      && Issue(Allocator("R", 0, {}), UniqueIdentStem(c, TenantNamespace(None, "test", "d"), IndexKind)).ident
         in KnownIdents(c)
  {
    var c := Witness();
    WitnessEntryIdents();
    WitnessKnowsIndexIdent();
    assert !EndsWith("collection-3-Q", "R");
    assert EndsWith("index-0-R", "R");
    assert UniqueIdentStem(c, TenantNamespace(None, "test", "d"), IndexKind) == "index-";
    IssueIndexZero();
  }
}

=== FILE: init_scan.dfy ===
/** The one-time startup scan (init) that fills the entry cache from the
    catalog's record store, and the full listing getAllCatalogEntries. Both
    walk the records in RecordId order and skip bookkeeping ("feature")
    documents, which are recognised by their shape, not by a schema field. */
module InitScan {
  import opened IdentAllocator
  import opened CatalogModel

  /** The field a bookkeeping document leads with. */
  const FeatureDocumentField := "isFeatureDoc"

  /** One record of the catalog's record store, decoded: the name and truth of
      its first field, and the catalog document it holds when it is an entry. */
  datatype RawRecord = RawRecord(firstField: string, firstFieldTrue: bool, doc: MetaData)

  /** isFeatureDocument: the record leads with the feature-document field set to true. */
  function IsFeatureDocument(r: RawRecord): (b: bool)
    ensures b ==> r.firstField == FeatureDocumentField
    ensures r.firstField == FeatureDocumentField ==> (b <==> r.firstFieldTrue)
  {
    r.firstField == FeatureDocumentField && r.firstFieldTrue
  }

  /** The record-store cursor yields each RecordId once, in increasing order. */
  predicate ScanOrdered(scan: seq<(RecordId, RawRecord)>) {
    forall k1, k2 | 0 <= k1 < k2 < |scan| :: scan[k1].0 < scan[k2].0
  }

  /** `t` collides with no ident named by an entry document of the scan. */
  predicate FreeForScan(scan: seq<(RecordId, RawRecord)>, t: string) {
    forall k | 0 <= k < |scan| && !IsFeatureDocument(scan[k].1) :: !Collides(IdentSet(scan[k].1.doc), t)
  }

  /** The durable documents found at startup obey the catalog's invariants:
      well-formed index lists, no ident or namespace named twice. */
  predicate ScanConsistent(scan: seq<(RecordId, RawRecord)>) {
    && (forall k | 0 <= k < |scan| && !IsFeatureDocument(scan[k].1) :: IndexesWellFormed(scan[k].1.doc))
    && (forall k1, k2 | 0 <= k1 < |scan| && 0 <= k2 < |scan| && k1 != k2
          && !IsFeatureDocument(scan[k1].1) && !IsFeatureDocument(scan[k2].1) ::
          IdentSet(scan[k1].1.doc) !! IdentSet(scan[k2].1.doc) && scan[k1].1.doc.ns != scan[k2].1.doc.ns)
  }

  /** The scan loop of init: every entry document is cached under its
      RecordId and every feature document remembered, nothing else. */
  method ScanRecords(scan: seq<(RecordId, RawRecord)>)
      returns (entries: map<RecordId, Entry>, metadata: map<RecordId, MetaData>, featureDocs: set<RecordId>)
    requires ScanOrdered(scan)
    ensures forall k | 0 <= k < |scan| ::
      if IsFeatureDocument(scan[k].1) then scan[k].0 in featureDocs
      else scan[k].0 in metadata && metadata[scan[k].0] == scan[k].1.doc
    ensures forall id | id in metadata :: exists k | 0 <= k < |scan| ::
      scan[k].0 == id && !IsFeatureDocument(scan[k].1)
    ensures forall id | id in featureDocs :: exists k | 0 <= k < |scan| ::
      scan[k].0 == id && IsFeatureDocument(scan[k].1)
    ensures entries.Keys == metadata.Keys
    ensures forall id | id in entries :: entries[id] == Entry(id, metadata[id].ident, metadata[id].ns)
    ensures featureDocs !! metadata.Keys
  {
    entries, metadata, featureDocs := map[], map[], {};
    var i := 0;
    while i < |scan|
      invariant 0 <= i <= |scan|
      invariant forall k | 0 <= k < i ::
        if IsFeatureDocument(scan[k].1) then scan[k].0 in featureDocs
        else scan[k].0 in metadata && metadata[scan[k].0] == scan[k].1.doc
      invariant forall id | id in metadata :: exists k | 0 <= k < i ::
        scan[k].0 == id && !IsFeatureDocument(scan[k].1)
      invariant forall id | id in featureDocs :: exists k | 0 <= k < i ::
        scan[k].0 == id && IsFeatureDocument(scan[k].1)
      invariant entries.Keys == metadata.Keys
      invariant forall id | id in entries :: entries[id] == Entry(id, metadata[id].ident, metadata[id].ns)
      invariant featureDocs !! metadata.Keys
    {
      var (id, record) := scan[i];
      assert forall k | 0 <= k < i :: scan[k].0 != id;
      assert id !in metadata && id !in featureDocs;
      if IsFeatureDocument(record) {
        featureDocs := featureDocs + {id};
      } else {
        metadata := metadata[id := record.doc];
        entries := entries[id := Entry(id, record.doc.ident, record.doc.ns)];
      }
      i := i + 1;
    }
  }

  /** init: caches every entry document under its RecordId, remembers the
      feature documents, then keeps the random token `rand` only if no
      cataloged ident, collection or index, ends with it; otherwise takes the
      first token of the random stream `tokens` that collides with none. */
  method Init(scan: seq<(RecordId, RawRecord)>, rand: string, tokens: seq<string>,
              directoryPerDb: bool, directoryForIndexes: bool) returns (c: Catalog)
    requires ScanOrdered(scan)
    requires !FreeForScan(scan, rand) ==> exists i | 0 <= i < |tokens| :: FreeForScan(scan, tokens[i])
    ensures forall k | 0 <= k < |scan| ::
      if IsFeatureDocument(scan[k].1) then scan[k].0 in c.featureDocs && scan[k].0 !in c.entries
      else scan[k].0 in c.metadata && c.metadata[scan[k].0] == scan[k].1.doc
    ensures forall id | id in c.metadata :: exists k | 0 <= k < |scan| ::
      scan[k].0 == id && !IsFeatureDocument(scan[k].1)
    ensures forall id | id in c.featureDocs :: exists k | 0 <= k < |scan| ::
      scan[k].0 == id && IsFeatureDocument(scan[k].1)
    ensures CacheMatchesDurable(c) && c.featureDocs !! c.metadata.Keys
    ensures c.alloc.next == 0 && c.alloc.seen == KnownIdents(c) && !Collides(KnownIdents(c), c.alloc.rand)
    ensures !Collides(KnownIdents(c), rand) ==> c.alloc.rand == rand
    ensures c.directoryPerDb == directoryPerDb && c.directoryForIndexes == directoryForIndexes
    ensures ScanConsistent(scan) ==> Valid(c)
  {
    var entries, metadata, featureDocs := ScanRecords(scan);
    var scanned := Catalog(entries, metadata, featureDocs, Allocator(rand, 0, {}), directoryPerDb, directoryForIndexes);
    ScanTokenAvailable(scan, scanned, tokens);
    assert {} + KnownIdents(scanned) + {} == KnownIdents(scanned);
    c := scanned.(alloc := AdmitForeign(scanned.alloc, {}, KnownIdents(scanned), tokens));
    assert c.entries == entries && c.metadata == metadata && c.featureDocs == featureDocs;
    ChooseTokenKeepsScan(scan, scanned, c, tokens);
  }

  lemma ChooseTokenKeepsScan(scan: seq<(RecordId, RawRecord)>, scanned: Catalog, c: Catalog, tokens: seq<string>)
    requires CacheMatchesDurable(scanned) && scanned.featureDocs !! scanned.metadata.Keys
    requires forall id | id in scanned.metadata :: exists k | 0 <= k < |scan| ::
      scan[k].0 == id && !IsFeatureDocument(scan[k].1) && scanned.metadata[id] == scan[k].1.doc
    requires scanned.alloc.next == 0 && scanned.alloc.seen == {}
    requires Collides(KnownIdents(scanned), scanned.alloc.rand) ==>
      exists i | 0 <= i < |tokens| :: !Collides(KnownIdents(scanned), tokens[i])
    requires c == scanned.(alloc := AdmitForeign(scanned.alloc, {}, KnownIdents(scanned), tokens))
    ensures c.alloc.next == 0 && c.alloc.seen == KnownIdents(c) && !Collides(KnownIdents(c), c.alloc.rand)
    ensures !Collides(KnownIdents(c), scanned.alloc.rand) ==> c.alloc.rand == scanned.alloc.rand
    ensures ScanConsistent(scan) ==> Valid(c)
  {
    assert {} + KnownIdents(scanned) + {} == KnownIdents(scanned);
    assert KnownIdents(c) == KnownIdents(scanned);
    if ScanConsistent(scan) {
      ScanConsistentGivesUnique(scan, c);
    }
  }

  /** When the start-up token collides with a cataloged ident, the stream
      holds a token that collides with none. */
  lemma ScanTokenAvailable(scan: seq<(RecordId, RawRecord)>, c: Catalog, tokens: seq<string>)
    requires !FreeForScan(scan, c.alloc.rand) ==> exists i | 0 <= i < |tokens| :: FreeForScan(scan, tokens[i])
    requires forall id | id in c.metadata :: exists k | 0 <= k < |scan| ::
      scan[k].0 == id && !IsFeatureDocument(scan[k].1) && c.metadata[id] == scan[k].1.doc
    ensures Collides(KnownIdents(c), c.alloc.rand) ==>
      exists i | 0 <= i < |tokens| :: !Collides(KnownIdents(c), tokens[i])
  {
    if Collides(KnownIdents(c), c.alloc.rand) {
      if FreeForScan(scan, c.alloc.rand) {
        ScanFreeIsCatalogFree(scan, c, c.alloc.rand);
        assert false;
      }
      var i :| 0 <= i < |tokens| && FreeForScan(scan, tokens[i]);
      ScanFreeIsCatalogFree(scan, c, tokens[i]);
    }
  }

  lemma ScanFreeIsCatalogFree(scan: seq<(RecordId, RawRecord)>, c: Catalog, t: string)
    requires FreeForScan(scan, t)
    requires forall id | id in c.metadata :: exists k | 0 <= k < |scan| ::
      scan[k].0 == id && !IsFeatureDocument(scan[k].1) && c.metadata[id] == scan[k].1.doc
    ensures !Collides(KnownIdents(c), t)
  {
    forall x | x in KnownIdents(c)
      ensures !EndsWith(x, t)
    {
      var id :| id in c.metadata && x in IdentSet(c.metadata[id]);
      var k :| 0 <= k < |scan| && scan[k].0 == id && !IsFeatureDocument(scan[k].1) && c.metadata[id] == scan[k].1.doc;
      assert !Collides(IdentSet(scan[k].1.doc), t);
    }
  }

  lemma ScanConsistentGivesUnique(scan: seq<(RecordId, RawRecord)>, c: Catalog)
    requires ScanConsistent(scan)
    requires forall id | id in c.metadata :: exists k | 0 <= k < |scan| ::
      scan[k].0 == id && !IsFeatureDocument(scan[k].1) && c.metadata[id] == scan[k].1.doc
    ensures Unique(c.metadata)
  {
    forall p | p in c.metadata
      ensures IndexesWellFormed(c.metadata[p])
    {
      var k :| 0 <= k < |scan| && scan[k].0 == p && !IsFeatureDocument(scan[k].1) && c.metadata[p] == scan[k].1.doc;
    }
    forall p, q | p in c.metadata && q in c.metadata && p != q
      ensures IdentSet(c.metadata[p]) !! IdentSet(c.metadata[q]) && c.metadata[p].ns != c.metadata[q].ns
    {
      var k1 :| 0 <= k1 < |scan| && scan[k1].0 == p && !IsFeatureDocument(scan[k1].1) && c.metadata[p] == scan[k1].1.doc;
      var k2 :| 0 <= k2 < |scan| && scan[k2].0 == q && !IsFeatureDocument(scan[k2].1) && c.metadata[q] == scan[k2].1.doc;
    }
  }

  /** A set that is not empty has a member. */
  lemma NonEmptyHasMember(s: set<RecordId>)
    requires s != {}
    ensures exists x :: x in s
  {
    if forall x :: x !in s {
      assert false;
    }
  }

  /** Every non-empty set of RecordIds has a least element. */
  lemma {:induction false} HasLeast(s: set<RecordId>)
    requires s != {}
    ensures exists k | k in s :: forall j | j in s :: k <= j
    decreases |s|
  {
    NonEmptyHasMember(s);
    var x :| x in s;
    var rest := s - {x};
    if rest == {} {
      forall j | j in s
        ensures x <= j
      {
        assert j !in rest;
      }
    } else {
      HasLeast(rest);
      var m :| m in rest && forall j | j in rest :: m <= j;
      var least := if x < m then x else m;
      forall j | j in s
        ensures least <= j
      {
        if j != x {
          assert j in rest;
        }
      }
      assert least in s;
    }
  }

  /** The elements of `s` in increasing order: the order a record-store cursor
      visits RecordIds. */
  method SortedIds(s: set<RecordId>) returns (ids: seq<RecordId>)
    ensures forall i | 0 <= i < |ids| :: ids[i] in s
    ensures forall k | k in s :: k in ids
    ensures forall i, j | 0 <= i < j < |ids| :: ids[i] < ids[j]
  {
    var rest := s;
    ids := [];
    while rest != {}
      invariant rest <= s
      invariant forall i | 0 <= i < |ids| :: ids[i] in s && ids[i] !in rest
      invariant forall k | k in s && k !in rest :: k in ids
      invariant forall i, j | 0 <= i < j < |ids| :: ids[i] < ids[j]
      invariant forall i, k | 0 <= i < |ids| && k in rest :: ids[i] < k
      decreases |rest|
    {
      HasLeast(rest);
      var k :| k in rest && forall j | j in rest :: k <= j;
      ids := ids + [k];
      rest := rest - {k};
    }
  }

  /** getAllCatalogEntries: walks the catalog's records in RecordId order and
      lists the entry of every record that is not a feature document. */
  method GetAllCatalogEntries(c: Catalog) returns (es: seq<Entry>)
    ensures forall i | 0 <= i < |es| ::
      && es[i].catalogId in c.metadata
      && es[i].catalogId !in c.featureDocs
      && es[i] == Entry(es[i].catalogId, c.metadata[es[i].catalogId].ident, c.metadata[es[i].catalogId].ns)
    ensures forall i, j | 0 <= i < j < |es| :: es[i].catalogId < es[j].catalogId
    ensures forall id | id in c.metadata && id !in c.featureDocs :: exists i | 0 <= i < |es| :: es[i].catalogId == id
  {
    var ids := SortedIds(c.metadata.Keys - c.featureDocs);
    es := seq(|ids|, i requires 0 <= i < |ids| && ids[i] in c.metadata =>
                Entry(ids[i], c.metadata[ids[i]].ident, c.metadata[ids[i]].ns));
    forall id | id in c.metadata && id !in c.featureDocs
      ensures exists i | 0 <= i < |es| :: es[i].catalogId == id
    {
      assert id in ids;
      var i :| 0 <= i < |ids| && ids[i] == id;
      assert es[i].catalogId == id;
    }
  }

  /** Whenever the cache agrees with the documents and no feature document is
      cataloged (after init, whatever was scanned, and after any valid sequence
      of operations), the listing is exactly the entry cache: same handles,
      same entries. */
  lemma ListingIsCache(c: Catalog, es: seq<Entry>)
    requires CacheMatchesDurable(c) && c.featureDocs !! c.metadata.Keys
    requires forall i | 0 <= i < |es| ::
      && es[i].catalogId in c.metadata
      && es[i] == Entry(es[i].catalogId, c.metadata[es[i].catalogId].ident, c.metadata[es[i].catalogId].ns)
    requires forall id | id in c.metadata && id !in c.featureDocs :: exists i | 0 <= i < |es| :: es[i].catalogId == id
    ensures forall i | 0 <= i < |es| :: es[i].catalogId in c.entries && es[i] == c.entries[es[i].catalogId]
    ensures forall id | id in c.entries :: exists i | 0 <= i < |es| :: es[i] == c.entries[id]
  {
    forall id | id in c.entries
      ensures exists i | 0 <= i < |es| :: es[i] == c.entries[id]
    {
      var i :| 0 <= i < |es| && es[i].catalogId == id;
    }
  }
}

=== FILE: lifecycle.dfy ===
/** The lifecycle operations of the durable catalog: create, createIndex,
    import, rename, drop, the resume-rebuild of an index ident, orphan claim
    and internal ident allocation. Each operation is a pure transition that
    returns the new catalog, its Status, the undo actions it registered with
    the enclosing transaction, and the calls it made on the storage engine.
    The storage engine's answers are the parameter `engine`. */
module Lifecycle {
  import opened Base
  import opened Digits
  import opened IdentAllocator
  import opened CatalogModel
  import opened Rollback

  datatype ObjectKind = CollectionKind | IndexKind

  /** Requests sent to the storage engine, which owns the physical objects. */
  datatype EngineCall =
    | CreateRecordStore(ns: TenantNamespace, ident: string, options: CollectionOptions)
    | CreateSortedDataInterface(collOptions: CollectionOptions, ident: string, spec: IndexSpec)
    | DropIdent(ident: string)

  datatype Outcome<+T> = Outcome(cat: Catalog, result: StatusWith<T>, hooks: seq<Undo>, calls: seq<EngineCall>)

  datatype ImportResult = ImportResult(catalogId: RecordId, md: MetaData)

  /** An ident handed out without being cataloged, with the catalog it leaves. */
  datatype NewIdent = NewIdent(ident: string, cat: Catalog)

  const InternalIdentPrefix := "internal-"
  const ResumableIndexBuildIdentStem := "resumable-index-build-"

  function KindName(kind: ObjectKind): string {
    match kind
    case CollectionKind => "collection"
    case IndexKind => "index"
  }

  /** The per-database directory an ident lives under when directoryPerDb is set. */
  function DbDirectory(ns: TenantNamespace): string {
    match ns.tenant
    case Some(t) => t + "_" + ns.db
    case None => ns.db
  }

  /** The namespace an orphaned ident is cataloged under. */
  function OrphanNamespace(ident: string): TenantNamespace {
    TenantNamespace(None, "local", "orphan." + ident)
  }

  /** isInternalIdent: the ident names an internal table. Under the flat
      layout no collection or index ident is internal. */
  function IsInternalIdent(ident: string): (b: bool)
    ensures b ==> !StartsWith(ident, KindName(CollectionKind)) && !StartsWith(ident, KindName(IndexKind))
  {
    if StartsWith(ident, InternalIdentPrefix) then
      assert ident[0] == 'i' && ident[2] == 't';
      true
    else false
  }

  /** isResumableIndexBuildIdent: the ident names the internal table of a
      resumable index build; every such ident is internal. */
  function IsResumableIndexBuildIdent(ident: string): (b: bool)
    ensures b ==> IsInternalIdent(ident)
  {
    if StartsWith(ident, InternalIdentPrefix + ResumableIndexBuildIdentStem) then
      assert ident[..|InternalIdentPrefix|] == (InternalIdentPrefix + ResumableIndexBuildIdentStem)[..|InternalIdentPrefix|];
      true
    else false
  }

  /** The layout flags and the bookkeeping documents are the same in both catalogs. */
  predicate SameLayout(c: Catalog, c': Catalog) {
    && c'.directoryPerDb == c.directoryPerDb
    && c'.directoryForIndexes == c.directoryForIndexes
    && c'.featureDocs == c.featureDocs
  }

  /** The catalog with document `md` stored at `id` and cached. */
  function WithDoc(c: Catalog, id: RecordId, md: MetaData): Catalog {
    c.(entries := c.entries[id := Entry(id, md.ident, md.ns)], metadata := c.metadata[id := md])
  }

  lemma StartsWithTrans(s: string, t: string, p: string)
    requires StartsWith(s, t) && StartsWith(t, p)
    ensures StartsWith(s, p)
  {
    assert s[..|p|] == s[..|t|][..|p|];
  }

  function UniqueIdentStem(c: Catalog, ns: TenantNamespace, kind: ObjectKind): (stem: string)
    ensures StemOk(stem)
    ensures c.directoryPerDb ==> StartsWith(stem, DbDirectory(ns) + "/")
    ensures !c.directoryPerDb ==> StartsWith(stem, KindName(kind))
  {
    var dir := if c.directoryPerDb then DbDirectory(ns) + "/" else "";
    var stem := dir + KindName(kind) + (if c.directoryForIndexes then "/" else "-");
    assert stem[..|dir|] == dir;
    assert !c.directoryPerDb ==> stem[..|KindName(kind)|] == KindName(kind);
    stem
  }

  /** A new ident for a collection or index of namespace `ns`: neither
      cataloged nor seen before. */
  function NewUniqueIdent(c: Catalog, ns: TenantNamespace, kind: ObjectKind): (r: Issued)
    requires Valid(c)
    ensures r.alloc == Allocator(c.alloc.rand, c.alloc.next + 1, c.alloc.seen + {r.ident})
    ensures r.ident !in KnownIdents(c) && r.ident !in c.alloc.seen
    ensures Sound(KnownIdents(c) + {r.ident}, r.alloc)
    ensures c.directoryPerDb ==> StartsWith(r.ident, DbDirectory(ns) + "/")
    ensures !c.directoryPerDb ==> StartsWith(r.ident, KindName(kind)) && !IsInternalIdent(r.ident)
  {
    var stem := UniqueIdentStem(c, ns, kind);
    IssueIsFresh(c.alloc, stem, KnownIdents(c));
    var r := Issue(c.alloc, stem);
    if c.directoryPerDb then StartsWithTrans(r.ident, stem, DbDirectory(ns) + "/"); r
    else
      StartsWithTrans(r.ident, stem, KindName(kind));
      KindIdentNotInternal(r.ident, kind);
      r
  }

  /** Under the flat layout an ident that starts with its kind is not internal. */
  lemma KindIdentNotInternal(x: string, kind: ObjectKind)
    requires StartsWith(x, KindName(kind))
    ensures !IsInternalIdent(x)
  {
    if IsInternalIdent(x) {
      match kind
      case CollectionKind => assert false;
      case IndexKind => assert false;
    }
  }

  /** An allocation whose ident is not cataloged leaves the catalog valid. */
  lemma AdvanceKeepsValid(c: Catalog, issued: Issued)
    requires Valid(c)
    requires c.alloc.seen <= issued.alloc.seen
    requires Sound(KnownIdents(c) + {issued.ident}, issued.alloc)
    ensures Valid(c.(alloc := issued.alloc))
  {
    SoundMonotone(KnownIdents(c) + {issued.ident}, KnownIdents(c), issued.alloc, issued.alloc);
    assert KnownIdents(c.(alloc := issued.alloc)) == KnownIdents(c);
  }

  /** Adding a cataloged document that names only new idents and a free
      namespace keeps the catalog valid. */
  lemma WithDocValid(c: Catalog, id: RecordId, md: MetaData, a: Allocator)
    requires Valid(c)
    requires id !in c.metadata && id !in c.featureDocs
    requires IndexesWellFormed(md)
    requires IdentSet(md) !! KnownIdents(c)
    requires !NamespaceInUse(c, md.ns)
    requires KnownIdents(c) + IdentSet(md) <= a.seen
    requires Sound(KnownIdents(c) + IdentSet(md), a)
    ensures KnownIdents(WithDoc(c, id, md)) == KnownIdents(c) + IdentSet(md)
    ensures Valid(WithDoc(c, id, md).(alloc := a))
  {
    var c' := WithDoc(c, id, md).(alloc := a);
    KnownOfInsert(c.metadata, id, md);
    forall p, q | p in c'.metadata && q in c'.metadata && p != q
      ensures IdentSet(c'.metadata[p]) !! IdentSet(c'.metadata[q]) && c'.metadata[p].ns != c'.metadata[q].ns
    {
      if p == id {
        KnownOfContains(c.metadata, q);
        assert c.entries[q].ns == c.metadata[q].ns;
      } else if q == id {
        KnownOfContains(c.metadata, p);
        assert c.entries[p].ns == c.metadata[p].ns;
      }
    }
  }

  lemma InsertThenRemove<V>(m: map<RecordId, V>, id: RecordId, e: V)
    requires id !in m
    ensures m[id := e] - {id} == m
  {
  }

  /** The catalog half of collection creation (_addEntry): allocates the
      collection ident, inserts the catalog document and the cache entry, and
      registers the AddIdentChange hook. */
  function AddEntry(c: Catalog, ns: TenantNamespace, options: CollectionOptions,
                    insert: StatusWith<RecordId>): (r: Outcome<Entry>)
    requires Valid(c)
    requires insert.Success? ==> insert.value !in c.entries && insert.value !in c.featureDocs
    ensures r.calls == []
    ensures r.result.Success? <==> !NamespaceInUse(c, ns) && insert.Success?
    ensures NamespaceInUse(c, ns) ==> r.result == Failure(NamespaceExists)
    ensures !NamespaceInUse(c, ns) && insert.Failure? ==> r.result == Failure(insert.code)
    ensures r.result.Failure? ==> r.hooks == [] && r.cat.entries == c.entries && r.cat.metadata == c.metadata
    ensures NamespaceInUse(c, ns) ==> r.cat.alloc == c.alloc
    ensures !NamespaceInUse(c, ns) ==>
      r.cat.alloc.rand == c.alloc.rand && r.cat.alloc.next == c.alloc.next + 1 && c.alloc.seen < r.cat.alloc.seen
    ensures r.result.Success? ==>
      var e := r.result.value;
      && e.catalogId == insert.value
      && e.catalogId !in c.entries
      && e.ns == ns
      && e.ident !in KnownIdents(c) && e.ident !in c.alloc.seen
      && r.cat.alloc.seen == c.alloc.seen + {e.ident}
      && r.cat.entries == c.entries[e.catalogId := e]
      && r.cat.metadata == c.metadata[e.catalogId := MetaData(ns, e.ident, options, [])]
      && r.hooks == [RemoveEntry(e.catalogId)]
  {
    if NamespaceInUse(c, ns) then Outcome(c, Failure(NamespaceExists), [], [])
    else
      var issued := NewUniqueIdent(c, ns, CollectionKind);
      var advanced := c.(alloc := issued.alloc);
      match insert
      case Failure(code) => Outcome(advanced, Failure(code), [], [])
      case Success(id) =>
        var md := MetaData(ns, issued.ident, options, []);
        Outcome(WithDoc(advanced, id, md), Success(Entry(id, issued.ident, ns)), [RemoveEntry(id)], [])
  }

  /** The successful half of _addEntry on its own: the new document names one
      new ident and a free namespace, and its hook removes exactly it again. */
  lemma AddedEntryKeepsValid(c: Catalog, ns: TenantNamespace, options: CollectionOptions, id: RecordId, issued: Issued)
    requires Valid(c)
    requires id !in c.entries && id !in c.featureDocs
    requires !NamespaceInUse(c, ns)
    requires issued.ident !in KnownIdents(c)
    requires KnownIdents(c) + {issued.ident} <= issued.alloc.seen
    requires Sound(KnownIdents(c) + {issued.ident}, issued.alloc)
    ensures var c' := WithDoc(c, id, MetaData(ns, issued.ident, options, [])).(alloc := issued.alloc);
      && Valid(c')
      && Undoes(c.entries, c'.entries, [RemoveEntry(id)])
  {
    var md := MetaData(ns, issued.ident, options, []);
    assert IdentSet(md) == {issued.ident};
    WithDocValid(c, id, md, issued.alloc);
    var c' := WithDoc(c, id, md).(alloc := issued.alloc);
    RollbackOne(c'.entries, RemoveEntry(id));
    InsertThenRemove(c.entries, id, Entry(id, issued.ident, ns));
  }

  /** _addEntry keeps the catalog valid, only ever advances the counter, and
      its hook undoes its cache change; a namespace conflict changes nothing. */
  lemma AddEntryKeepsValid(c: Catalog, ns: TenantNamespace, options: CollectionOptions, insert: StatusWith<RecordId>)
    requires Valid(c)
    requires insert.Success? ==> insert.value !in c.entries && insert.value !in c.featureDocs
    ensures var r := AddEntry(c, ns, options, insert);
      && Valid(r.cat) && SameLayout(c, r.cat)
      && Undoes(c.entries, r.cat.entries, r.hooks)
      && r.cat.alloc.rand == c.alloc.rand && r.cat.alloc.next >= c.alloc.next
      && c.alloc.seen <= r.cat.alloc.seen
      && (NamespaceInUse(c, ns) ==> r.cat == c)
  {
    var r := AddEntry(c, ns, options, insert);
    if NamespaceInUse(c, ns) {
      assert r.cat == c && r.hooks == [];
      RollbackEntries0(r.cat.entries);
    } else {
      var issued := NewUniqueIdent(c, ns, CollectionKind);
      match insert
      case Failure(code) =>
        assert r.cat == c.(alloc := issued.alloc) && r.hooks == [];
        AdvanceKeepsValid(c, issued);
        RollbackEntries0(r.cat.entries);
      case Success(id) =>
        assert r.cat == WithDoc(c, id, MetaData(ns, issued.ident, options, [])).(alloc := issued.alloc);
        assert r.hooks == [RemoveEntry(id)];
        AddedEntryKeepsValid(c, ns, options, id, issued);
    }
  }

  /** createCollection: adds the entry, then asks the storage engine for the
      record store under the new ident. An engine failure is returned as is;
      the entry stays until the enclosing transaction aborts. */
  function CreateCollection(c: Catalog, ns: TenantNamespace, options: CollectionOptions,
                            insert: StatusWith<RecordId>, engine: EngineCall -> Status): (r: Outcome<RecordId>)
    requires Valid(c)
    requires insert.Success? ==> insert.value !in c.entries && insert.value !in c.featureDocs
    ensures NamespaceInUse(c, ns) ==> r.result == Failure(NamespaceExists) && r.calls == []
    ensures !NamespaceInUse(c, ns) && insert.Failure? ==>
      r.result == Failure(insert.code) && r.cat.entries == c.entries && r.calls == [] && r.hooks == []
    ensures !NamespaceInUse(c, ns) && insert.Success? ==>
      var id := insert.value;
      && id !in c.entries
      && id in r.cat.entries
      && r.cat.entries == c.entries[id := Entry(id, r.cat.entries[id].ident, ns)]
      && r.cat.metadata == c.metadata[id := MetaData(ns, r.cat.entries[id].ident, options, [])]
      && r.cat.alloc == Allocator(c.alloc.rand, c.alloc.next + 1, c.alloc.seen + {r.cat.entries[id].ident})
      && r.cat.entries[id].ident !in KnownIdents(c) && r.cat.entries[id].ident !in c.alloc.seen
      && r.calls == [CreateRecordStore(ns, r.cat.entries[id].ident, options)]
      && r.hooks == [RemoveEntry(id)]
      && r.result == (if engine(r.calls[0]).OK? then Success(id) else Failure(engine(r.calls[0]).code))
  {
    var added := AddEntry(c, ns, options, insert);
    match added.result
    case Failure(code) => Outcome(added.cat, Failure(code), added.hooks, [])
    case Success(e) =>
      var call := CreateRecordStore(ns, e.ident, options);
      var st := engine(call);
      Outcome(added.cat, if st.OK? then Success(e.catalogId) else Failure(st.code), added.hooks, [call])
  }

  lemma CreateCollectionKeepsValid(c: Catalog, ns: TenantNamespace, options: CollectionOptions,
                                   insert: StatusWith<RecordId>, engine: EngineCall -> Status)
    requires Valid(c)
    requires insert.Success? ==> insert.value !in c.entries && insert.value !in c.featureDocs
    ensures var r := CreateCollection(c, ns, options, insert, engine);
      && Valid(r.cat) && SameLayout(c, r.cat)
      && Undoes(c.entries, r.cat.entries, r.hooks)
      && r.cat.alloc.rand == c.alloc.rand && r.cat.alloc.next >= c.alloc.next
      && c.alloc.seen <= r.cat.alloc.seen
      && (NamespaceInUse(c, ns) ==> r.cat == c)
  {
    AddEntryKeepsValid(c, ns, options, insert);
  }

  /** The document with one more index, not yet ready and not multikey. */
  function AppendIndex(md: MetaData, spec: IndexSpec, ident: string): (md': MetaData)
    ensures md'.ns == md.ns && md'.ident == md.ident && md'.options == md.options
    ensures |md'.indexes| == |md.indexes| + 1 && md'.indexes[..|md.indexes|] == md.indexes
    ensures md'.indexes[|md.indexes|] == IndexMeta(spec.name, spec, ident, false, false)
    ensures IdentSet(md') == IdentSet(md) + {ident}
  {
    var md' := md.(indexes := md.indexes + [IndexMeta(spec.name, spec, ident, false, false)]);
    assert md'.indexes[|md.indexes|].ident == ident;
    md'
  }

  lemma AppendIndexWellFormed(md: MetaData, spec: IndexSpec, ident: string)
    requires IndexesWellFormed(md)
    requires FindIndexOffset(md, spec.name) == -1
    requires ident !in IdentSet(md)
    ensures IndexesWellFormed(AppendIndex(md, spec, ident))
  {
    forall i | 0 <= i < |md.indexes|
      ensures md.indexes[i].ident in IdentSet(md)
    {
    }
  }

  /** Giving one document one more, new ident keeps idents and namespaces unique. */
  lemma GrowDocUnique(m: map<RecordId, MetaData>, id: RecordId, md': MetaData, x: string)
    requires Unique(m) && id in m
    requires md'.ns == m[id].ns && IndexesWellFormed(md')
    requires IdentSet(md') == IdentSet(m[id]) + {x}
    requires x !in KnownOf(m)
    ensures Unique(m[id := md'])
  {
    var m' := m[id := md'];
    forall p, q | p in m' && q in m' && p != q
      ensures IdentSet(m'[p]) !! IdentSet(m'[q])
    {
      if p == id {
        KnownOfContains(m, q);
      } else if q == id {
        KnownOfContains(m, p);
      }
    }
  }

  /** Rewriting a document without touching its ident or namespace leaves the cache in step. */
  lemma SameHeaderKeepsCache(c: Catalog, id: RecordId, md': MetaData)
    requires CacheMatchesDurable(c) && id in c.metadata
    requires md'.ident == c.metadata[id].ident && md'.ns == c.metadata[id].ns
    ensures CacheMatchesDurable(c.(metadata := c.metadata[id := md']))
  {
  }

  lemma AppendIndexValid(c: Catalog, id: RecordId, spec: IndexSpec, issued: Issued)
    requires Valid(c)
    requires id in c.metadata
    requires FindIndexOffset(c.metadata[id], spec.name) == -1
    requires issued.ident !in KnownIdents(c)
    requires KnownIdents(c) + {issued.ident} <= issued.alloc.seen
    requires Sound(KnownIdents(c) + {issued.ident}, issued.alloc)
    ensures Valid(c.(alloc := issued.alloc, metadata := c.metadata[id := AppendIndex(c.metadata[id], spec, issued.ident)]))
  {
    var md := c.metadata[id];
    var md' := AppendIndex(md, spec, issued.ident);
    var m' := c.metadata[id := md'];
    KnownOfUpdate(c.metadata, id, md', {issued.ident});
    KnownOfContains(c.metadata, id);
    AppendIndexWellFormed(md, spec, issued.ident);
    assert md'.ns == md.ns && IdentSet(md') == IdentSet(md) + {issued.ident};
    GrowDocUnique(c.metadata, id, md', issued.ident);
    var c' := c.(alloc := issued.alloc, metadata := m');
    assert KnownIdents(c') == KnownIdents(c) + {issued.ident};
    SameHeaderKeepsCache(c, id, md');
  }

  /** The building half of createIndex, once the handle is known and the
      name is free: one engine request under a new ident, and the index is
      recorded only when the engine succeeds. */
  function BuildIndex(c: Catalog, id: RecordId, collOptions: CollectionOptions, spec: IndexSpec,
                      engine: EngineCall -> Status): (r: Outcome<()>)
    requires Valid(c)
    requires id in c.entries && FindIndexOffset(c.metadata[id], spec.name) == -1
    ensures r.hooks == [] && r.cat.entries == c.entries
    ensures r.result.Failure? ==> r.cat.metadata == c.metadata
    ensures |r.calls| == 1
    ensures r.calls[0] == CreateSortedDataInterface(collOptions, r.calls[0].ident, spec)
    ensures r.calls[0].ident !in KnownIdents(c) && r.calls[0].ident !in c.alloc.seen
    ensures r.cat.alloc == Allocator(c.alloc.rand, c.alloc.next + 1, c.alloc.seen + {r.calls[0].ident})
    ensures engine(r.calls[0]).Error? ==> r.result == Failure(engine(r.calls[0]).code)
    ensures engine(r.calls[0]).OK? ==>
      r.result.Success? &&
      r.cat.metadata == c.metadata[id := AppendIndex(c.metadata[id], spec, r.calls[0].ident)]
  {
    var md := c.metadata[id];
    var issued := NewUniqueIdent(c, md.ns, IndexKind);
    var advanced := c.(alloc := issued.alloc);
    var call := CreateSortedDataInterface(collOptions, issued.ident, spec);
    var st := engine(call);
    if st.Error? then Outcome(advanced, Failure(st.code), [], [call])
    else
      Outcome(advanced.(metadata := c.metadata[id := AppendIndex(md, spec, issued.ident)]),
              Success(()), [], [call])
  }

  /** createIndex: allocates an ident for the index, asks the storage engine
      for the physical index, and appends the index to the catalog document.
      Fails when the handle is unknown or an index of that name exists. */
  function CreateIndex(c: Catalog, id: RecordId, collOptions: CollectionOptions, spec: IndexSpec,
                       engine: EngineCall -> Status): (r: Outcome<()>)
    requires Valid(c)
    ensures r.hooks == [] && r.cat.entries == c.entries
    ensures id !in c.entries ==> r.result == Failure(NamespaceNotFound) && r.calls == []
    ensures id in c.entries && FindIndexOffset(c.metadata[id], spec.name) >= 0 ==>
      r.result == Failure(IndexAlreadyExists) && r.calls == []
    ensures r.result.Failure? ==> r.cat.metadata == c.metadata
    ensures id in c.entries && FindIndexOffset(c.metadata[id], spec.name) == -1 ==>
      && |r.calls| == 1
      && r.calls[0] == CreateSortedDataInterface(collOptions, r.calls[0].ident, spec)
      && r.calls[0].ident !in KnownIdents(c) && r.calls[0].ident !in c.alloc.seen
      && (engine(r.calls[0]).Error? ==> r.result == Failure(engine(r.calls[0]).code))
      && (engine(r.calls[0]).OK? ==>
            r.result.Success? &&
            r.cat.metadata == c.metadata[id := AppendIndex(c.metadata[id], spec, r.calls[0].ident)])
    ensures id in c.entries && FindIndexOffset(c.metadata[id], spec.name) == -1 ==>
      && r.cat.alloc.rand == c.alloc.rand && r.cat.alloc.next == c.alloc.next + 1
      && |r.calls| == 1 && r.cat.alloc.seen == c.alloc.seen + {r.calls[0].ident}
  {
    if id !in c.entries then Outcome(c, Failure(NamespaceNotFound), [], [])
    else if FindIndexOffset(c.metadata[id], spec.name) >= 0 then Outcome(c, Failure(IndexAlreadyExists), [], [])
    else BuildIndex(c, id, collOptions, spec, engine)
  }

  lemma CreateIndexKeepsValid(c: Catalog, id: RecordId, collOptions: CollectionOptions, spec: IndexSpec,
                              engine: EngineCall -> Status)
    requires Valid(c)
    ensures var r := CreateIndex(c, id, collOptions, spec, engine);
      && Valid(r.cat) && SameLayout(c, r.cat)
      && Undoes(c.entries, r.cat.entries, r.hooks)
      && r.cat.alloc.rand == c.alloc.rand && r.cat.alloc.next >= c.alloc.next
      && c.alloc.seen <= r.cat.alloc.seen
      && (r.calls == [] ==> r.cat == c)
  {
    var r := CreateIndex(c, id, collOptions, spec, engine);
    RollbackEntries0(c.entries);
    if id !in c.entries || FindIndexOffset(c.metadata[id], spec.name) >= 0 {
      assert r.cat == c;
    } else {
      var md := c.metadata[id];
      var issued := NewUniqueIdent(c, md.ns, IndexKind);
      var call := CreateSortedDataInterface(collOptions, issued.ident, spec);
      if engine(call).Error? {
        assert r.cat == c.(alloc := issued.alloc);
        AdvanceKeepsValid(c, issued);
      } else {
        assert r.cat == c.(alloc := issued.alloc, metadata := c.metadata[id := AppendIndex(md, spec, issued.ident)]);
        AppendIndexValid(c, id, spec, issued);
      }
    }
  }

  /** Import preconditions on the random token stream: if an imported ident
      ends with the current token, some token of the stream collides with no
      ident the catalog will know and no ident issued so far. */
  predicate TokensCover(c: Catalog, foreign: set<string>, tokens: seq<string>) {
    Collides(foreign, c.alloc.rand) ==>
      exists i | 0 <= i < |tokens| :: !Collides(KnownIdents(c) + foreign + c.alloc.seen, tokens[i])
  }

  /** importCollection / _importEntry: catalogs a collection whose physical
      objects already exist, reusing the supplied idents verbatim. Fails when
      the namespace is cataloged, when the supplied document is malformed, or
      when any supplied ident is already known. */
  function ImportCollection(c: Catalog, ns: TenantNamespace, md: MetaData,
                            insert: StatusWith<RecordId>, tokens: seq<string>): (r: Outcome<ImportResult>)
    requires Valid(c)
    requires insert.Success? ==> insert.value !in c.entries && insert.value !in c.featureDocs
    requires TokensCover(c, IdentSet(md), tokens)
    ensures r.calls == []
    ensures r.result.Failure? ==> r.cat == c && r.hooks == []
    ensures NamespaceInUse(c, ns) ==> r.result == Failure(NamespaceExists)
    ensures !NamespaceInUse(c, ns) && !IndexesWellFormed(md) ==> r.result == Failure(BadValue)
    ensures !NamespaceInUse(c, ns) && IndexesWellFormed(md) && !(IdentSet(md) !! KnownIdents(c)) ==>
      r.result == Failure(DuplicateKey)
    ensures r.result.Success? <==>
      !NamespaceInUse(c, ns) && IndexesWellFormed(md) && IdentSet(md) !! KnownIdents(c) && insert.Success?
    ensures r.result.Success? ==>
      var id := r.result.value.catalogId;
      && id == insert.value
      && id !in c.entries
      && r.result.value.md == md.(ns := ns)
      && r.cat.entries == c.entries[id := Entry(id, md.ident, ns)]
      && r.cat.metadata == c.metadata[id := md.(ns := ns)]
      && r.cat.alloc.seen == c.alloc.seen + IdentSet(md)
      && r.hooks == [RemoveEntry(id)]
  {
    if NamespaceInUse(c, ns) then Outcome(c, Failure(NamespaceExists), [], [])
    else if !IndexesWellFormed(md) then Outcome(c, Failure(BadValue), [], [])
    else if !(IdentSet(md) !! KnownIdents(c)) then Outcome(c, Failure(DuplicateKey), [], [])
    else
      match insert
      case Failure(code) => Outcome(c, Failure(code), [], [])
      case Success(id) =>
        var md' := md.(ns := ns);
        var a := AdmitForeign(c.alloc, KnownIdents(c), IdentSet(md), tokens);
        Outcome(WithDoc(c, id, md').(alloc := a), Success(ImportResult(id, md')), [RemoveEntry(id)], [])
  }

  lemma ImportCollectionKeepsValid(c: Catalog, ns: TenantNamespace, md: MetaData,
                                   insert: StatusWith<RecordId>, tokens: seq<string>)
    requires Valid(c)
    requires insert.Success? ==> insert.value !in c.entries && insert.value !in c.featureDocs
    requires TokensCover(c, IdentSet(md), tokens)
    ensures var r := ImportCollection(c, ns, md, insert, tokens);
      && Valid(r.cat) && SameLayout(c, r.cat)
      && Undoes(c.entries, r.cat.entries, r.hooks)
      && r.cat.alloc.next == c.alloc.next && c.alloc.seen <= r.cat.alloc.seen
  {
    var r := ImportCollection(c, ns, md, insert, tokens);
    if r.result.Failure? {
      RollbackEntries0(c.entries);
    } else {
      var id := insert.value;
      var md' := md.(ns := ns);
      var a := AdmitForeign(c.alloc, KnownIdents(c), IdentSet(md), tokens);
      assert r.cat == WithDoc(c, id, md').(alloc := a);
      assert IdentSet(md') == IdentSet(md);
      WithDocValid(c, id, md', a);
      RollbackOne(r.cat.entries, RemoveEntry(id));
      InsertThenRemove(c.entries, id, Entry(id, md.ident, ns));
    }
  }

  /** renameCollection / _replaceEntry: changes the namespace of one entry in
      its document and in the cache, keeping its handle, ident, options and
      indexes, and registers a hook restoring the old namespace. */
  function RenameCollection(c: Catalog, id: RecordId, toNs: TenantNamespace): (r: Outcome<()>)
    requires Valid(c)
    ensures r.calls == []
    ensures r.result.Failure? ==> r.cat == c && r.hooks == []
    ensures id !in c.entries ==> r.result == Failure(NamespaceNotFound)
    ensures id in c.entries && (exists other | other in c.entries && other != id :: c.entries[other].ns == toNs) ==>
      r.result == Failure(NamespaceExists)
    ensures r.result.Success? ==>
      && id in c.entries && id in r.cat.entries
      && r.cat.entries.Keys == c.entries.Keys
      && id in c.metadata && r.cat.metadata.Keys == c.metadata.Keys
      && r.cat.entries[id] == c.entries[id].(ns := toNs)
      && r.cat.metadata[id] == c.metadata[id].(ns := toNs)
      && (forall other | other in c.entries && other != id ::
            r.cat.entries[other] == c.entries[other] && r.cat.metadata[other] == c.metadata[other])
      && r.hooks == [RestoreNamespace(id, c.entries[id].ns)]
    ensures r.result.Success? <==>
      id in c.entries && forall other | other in c.entries && other != id :: c.entries[other].ns != toNs
  {
    if id !in c.entries then Outcome(c, Failure(NamespaceNotFound), [], [])
    else if exists other | other in c.entries && other != id :: c.entries[other].ns == toNs then
      Outcome(c, Failure(NamespaceExists), [], [])
    else
      var e := c.entries[id];
      Outcome(c.(entries := c.entries[id := e.(ns := toNs)], metadata := c.metadata[id := c.metadata[id].(ns := toNs)]),
              Success(()), [RestoreNamespace(id, e.ns)], [])
  }

  lemma RenameKeepsValid(c: Catalog, id: RecordId, toNs: TenantNamespace)
    requires Valid(c)
    requires id in c.entries
    requires forall other | other in c.entries && other != id :: c.entries[other].ns != toNs
    ensures var c' := c.(entries := c.entries[id := c.entries[id].(ns := toNs)],
                         metadata := c.metadata[id := c.metadata[id].(ns := toNs)]);
      Valid(c') && KnownIdents(c') == KnownIdents(c)
  {
    var md' := c.metadata[id].(ns := toNs);
    assert IdentSet(md') == IdentSet(c.metadata[id]);
    KnownOfUpdate(c.metadata, id, md', {});
    var m' := c.metadata[id := md'];
    forall p, q | p in m' && q in m' && p != q
      ensures m'[p].ns != m'[q].ns
    {
      if p == id {
        assert c.entries[q].ns == c.metadata[q].ns;
      } else if q == id {
        assert c.entries[p].ns == c.metadata[p].ns;
      }
    }
  }

  lemma RenameCollectionKeepsValid(c: Catalog, id: RecordId, toNs: TenantNamespace)
    requires Valid(c)
    ensures var r := RenameCollection(c, id, toNs);
      && Valid(r.cat) && SameLayout(c, r.cat)
      && Undoes(c.entries, r.cat.entries, r.hooks)
      && r.cat.alloc == c.alloc
      && KnownIdents(r.cat) == KnownIdents(c)
  {
    var r := RenameCollection(c, id, toNs);
    if r.result.Failure? {
      RollbackEntries0(c.entries);
    } else {
      var e := c.entries[id];
      var md' := c.metadata[id].(ns := toNs);
      assert r.cat == c.(entries := c.entries[id := e.(ns := toNs)], metadata := c.metadata[id := md']);
      RenameKeepsValid(c, id, toNs);
      RollbackOne(r.cat.entries, RestoreNamespace(id, e.ns));
      assert e.(ns := toNs).(ns := e.ns) == e;
      assert r.cat.entries[id := r.cat.entries[id].(ns := e.ns)] == c.entries;
    }
  }

  /** dropCollection / _removeEntry: removes one entry's document and cache
      entry and registers a hook re-inserting the entry. The physical objects
      are left for the caller to reclaim. */
  function DropCollection(c: Catalog, id: RecordId): (r: Outcome<()>)
    requires Valid(c)
    ensures r.calls == []
    ensures r.result.Success? <==> id in c.entries
    ensures r.result.Failure? ==> r.result == Failure(NamespaceNotFound) && r.cat == c && r.hooks == []
    ensures r.result.Success? ==>
      && r.cat.entries.Keys == c.entries.Keys - {id}
      && r.cat.metadata.Keys == c.metadata.Keys - {id}
      && (forall other | other in r.cat.entries ::
            r.cat.entries[other] == c.entries[other] && r.cat.metadata[other] == c.metadata[other])
      && r.hooks == [ReinsertEntry(id, c.entries[id])]
  {
    if id !in c.entries then Outcome(c, Failure(NamespaceNotFound), [], [])
    else
      Outcome(c.(entries := c.entries - {id}, metadata := c.metadata - {id}),
              Success(()), [ReinsertEntry(id, c.entries[id])], [])
  }

  lemma DropCollectionKeepsValid(c: Catalog, id: RecordId)
    requires Valid(c)
    ensures var r := DropCollection(c, id);
      && Valid(r.cat) && SameLayout(c, r.cat)
      && Undoes(c.entries, r.cat.entries, r.hooks)
      && r.cat.alloc == c.alloc
  {
    var r := DropCollection(c, id);
    if r.result.Failure? {
      RollbackEntries0(c.entries);
    } else {
      KnownOfRemove(c.metadata, id);
      SoundMonotone(KnownIdents(c), KnownIdents(r.cat), c.alloc, c.alloc);
      RollbackOne(r.cat.entries, ReinsertEntry(id, c.entries[id]));
      assert (c.entries - {id})[id := c.entries[id]] == c.entries;
    }
  }

  /** dropAndRecreateIndexIdentForResume: asks the storage engine to drop the
      physical index under `ident` and, if that succeeds, to create a fresh
      one under the same ident. The catalog itself is not touched. */
  function DropAndRecreateIndexIdentForResume(c: Catalog, collOptions: CollectionOptions, spec: IndexSpec,
                                              ident: string, engine: EngineCall -> Status): (r: Outcome<()>)
    ensures r.cat == c && r.hooks == []
    ensures 1 <= |r.calls| <= 2 && r.calls[0] == DropIdent(ident)
    ensures |r.calls| == 2 <==> engine(DropIdent(ident)).OK?
    ensures |r.calls| == 2 ==> r.calls[1] == CreateSortedDataInterface(collOptions, ident, spec)
    ensures r.result.Success? <==> forall k | 0 <= k < |r.calls| :: engine(r.calls[k]).OK?
    ensures r.result.Failure? ==> r.result.code == engine(r.calls[|r.calls| - 1]).code
  {
    var drop := DropIdent(ident);
    match engine(drop)
    case Error(code) => Outcome(c, Failure(code), [], [drop])
    case OK =>
      var create := CreateSortedDataInterface(collOptions, ident, spec);
      Outcome(c, if engine(create).OK? then Success(()) else Failure(engine(create).code), [], [drop, create])
  }

  /** newOrphanedIdent: catalogs an ident found on disk without an entry, under
      a namespace derived from it. The ident is used as given, never
      re-allocated; an ident already in use is refused. */
  function NewOrphanedIdent(c: Catalog, ident: string, insert: StatusWith<RecordId>, tokens: seq<string>): (r: Outcome<string>)
    requires Valid(c)
    requires insert.Success? ==> insert.value !in c.entries && insert.value !in c.featureDocs
    requires TokensCover(c, {ident}, tokens)
    ensures r.calls == []
    ensures r.result.Failure? ==> r.cat == c && r.hooks == []
    ensures ident in KnownIdents(c) ==> r.result == Failure(DuplicateKey)
    ensures ident !in KnownIdents(c) && NamespaceInUse(c, OrphanNamespace(ident)) ==> r.result == Failure(NamespaceExists)
    ensures r.result.Success? <==>
      ident !in KnownIdents(c) && !NamespaceInUse(c, OrphanNamespace(ident)) && insert.Success?
    ensures r.result.Success? ==>
      && r.result.value == ident
      && insert.value !in c.entries
      && r.cat.entries == c.entries[insert.value := Entry(insert.value, ident, OrphanNamespace(ident))]
      && r.cat.metadata == c.metadata[insert.value := MetaData(OrphanNamespace(ident), ident, DefaultOptions(), [])]
      && r.cat.alloc.seen == c.alloc.seen + {ident}
      && r.hooks == [RemoveEntry(insert.value)]
  {
    if ident in KnownIdents(c) then Outcome(c, Failure(DuplicateKey), [], [])
    else if NamespaceInUse(c, OrphanNamespace(ident)) then Outcome(c, Failure(NamespaceExists), [], [])
    else
      match insert
      case Failure(code) => Outcome(c, Failure(code), [], [])
      case Success(id) =>
        var md := MetaData(OrphanNamespace(ident), ident, DefaultOptions(), []);
        var a := AdmitForeign(c.alloc, KnownIdents(c), {ident}, tokens);
        Outcome(WithDoc(c, id, md).(alloc := a), Success(ident), [RemoveEntry(id)], [])
  }

  lemma NewOrphanedIdentKeepsValid(c: Catalog, ident: string, insert: StatusWith<RecordId>, tokens: seq<string>)
    requires Valid(c)
    requires insert.Success? ==> insert.value !in c.entries && insert.value !in c.featureDocs
    requires TokensCover(c, {ident}, tokens)
    ensures var r := NewOrphanedIdent(c, ident, insert, tokens);
      && Valid(r.cat) && SameLayout(c, r.cat)
      && Undoes(c.entries, r.cat.entries, r.hooks)
      && r.cat.alloc.next == c.alloc.next && c.alloc.seen <= r.cat.alloc.seen
  {
    var r := NewOrphanedIdent(c, ident, insert, tokens);
    if r.result.Failure? {
      RollbackEntries0(c.entries);
    } else {
      var id := insert.value;
      var md := MetaData(OrphanNamespace(ident), ident, DefaultOptions(), []);
      var a := AdmitForeign(c.alloc, KnownIdents(c), {ident}, tokens);
      assert r.cat == WithDoc(c, id, md).(alloc := a);
      assert IdentSet(md) == {ident};
      WithDocValid(c, id, md, a);
      RollbackOne(r.cat.entries, RemoveEntry(id));
      InsertThenRemove(c.entries, id, Entry(id, ident, OrphanNamespace(ident)));
    }
  }

  /** _newInternalIdent: an ident for an internal table, not cataloged. */
  function NewInternalIdentWithStem(c: Catalog, identStem: string): (r: NewIdent)
    requires Valid(c)
    requires StemOk(InternalIdentPrefix + identStem)
    ensures r.ident !in KnownIdents(c) && r.ident !in c.alloc.seen
    ensures StartsWith(r.ident, InternalIdentPrefix + identStem)
    ensures IssuedCounter(r.ident, c.alloc.rand) == Some(c.alloc.next)
    ensures r.cat == c.(alloc := Allocator(c.alloc.rand, c.alloc.next + 1, c.alloc.seen + {r.ident}))
    ensures Valid(r.cat)
  {
    IssueIsFresh(c.alloc, InternalIdentPrefix + identStem, KnownIdents(c));
    var issued := Issue(c.alloc, InternalIdentPrefix + identStem);
    AdvanceKeepsValid(c, issued);
    NewIdent(issued.ident, c.(alloc := issued.alloc))
  }

  /** newInternalIdent: a fresh internal ident that is not one of a resumable index build. */
  function NewInternalIdent(c: Catalog): (r: NewIdent)
    requires Valid(c)
    ensures r.ident !in KnownIdents(c) && r.ident !in c.alloc.seen
    ensures IsInternalIdent(r.ident) && !IsResumableIndexBuildIdent(r.ident)
    ensures r.cat == c.(alloc := Allocator(c.alloc.rand, c.alloc.next + 1, c.alloc.seen + {r.ident}))
    ensures Valid(r.cat)
  {
    assert InternalIdentPrefix + "" == InternalIdentPrefix;
    var r := NewInternalIdentWithStem(c, "");
    PlainInternalIdent(r.ident);
    r
  }

  /** An internal ident whose counter follows the prefix directly is not one
      of a resumable index build. */
  lemma PlainInternalIdent(x: string)
    requires StartsWith(x, InternalIdentPrefix)
    requires |x| > |InternalIdentPrefix| && IsDigit(x[|InternalIdentPrefix|])
    ensures IsInternalIdent(x) && !IsResumableIndexBuildIdent(x)
  {
    assert (InternalIdentPrefix + ResumableIndexBuildIdentStem)[|InternalIdentPrefix|] == 'r';
  }

  /** newInternalResumableIndexBuildIdent: a fresh internal ident marked as
      belonging to a resumable index build. */
  function NewInternalResumableIndexBuildIdent(c: Catalog): (r: NewIdent)
    requires Valid(c)
    ensures r.ident !in KnownIdents(c) && r.ident !in c.alloc.seen
    ensures IsInternalIdent(r.ident) && IsResumableIndexBuildIdent(r.ident)
    ensures r.cat == c.(alloc := Allocator(c.alloc.rand, c.alloc.next + 1, c.alloc.seen + {r.ident}))
    ensures Valid(r.cat)
  {
    var r := NewInternalIdentWithStem(c, ResumableIndexBuildIdentStem);
    StartsWithTrans(r.ident, InternalIdentPrefix + ResumableIndexBuildIdentStem, InternalIdentPrefix);
    r
  }
}

=== FILE: properties.dfy ===
/** Properties that relate several operations of the durable catalog: what a
    transaction abort restores, what a rename keeps, and the end-to-end
    behaviours a caller relies on. */
module Properties {
  import opened Base
  import opened IdentAllocator
  import opened CatalogModel
  import opened Rollback
  import opened Lifecycle
  import opened Accessors

  /** Creating a collection and then aborting the transaction: the
      AddIdentChange hook removes the handle again, the storage engine drops
      the document, and the catalog is as before except for the allocator. */
  lemma CreateThenAbort(c: Catalog, ns: TenantNamespace, options: CollectionOptions, id: RecordId,
                        engine: EngineCall -> Status)
    requires Valid(c)
    requires id !in c.entries && id !in c.featureDocs
    ensures var r := CreateCollection(c, ns, options, Success(id), engine);
      var a := Abort(c, r.cat, r.hooks);
      && id !in a.entries && id !in a.metadata
      && a == c.(alloc := r.cat.alloc)
      && Valid(a)
  {
    var r := CreateCollection(c, ns, options, Success(id), engine);
    CreateCollectionKeepsValid(c, ns, options, Success(id), engine);
    AbortRestores(c, r.cat, r.hooks);
  }

  /** Two operations in one transaction, then abort: the hooks of both, run
      newest first, restore the cache, whatever the operations were. Shown for
      a create followed by a rename of the new collection. */
  lemma CreateRenameThenAbort(c: Catalog, ns: TenantNamespace, toNs: TenantNamespace,
                              options: CollectionOptions, id: RecordId, engine: EngineCall -> Status)
    requires Valid(c)
    requires id !in c.entries && id !in c.featureDocs
    ensures var r1 := CreateCollection(c, ns, options, Success(id), engine);
      Valid(r1.cat) &&
      var r2 := RenameCollection(r1.cat, id, toNs);
      var a := Abort(c, r2.cat, r1.hooks + r2.hooks);
      && a == c.(alloc := r2.cat.alloc)
      && Valid(a)
  {
    var r1 := CreateCollection(c, ns, options, Success(id), engine);
    CreateCollectionKeepsValid(c, ns, options, Success(id), engine);
    var r2 := RenameCollection(r1.cat, id, toNs);
    RenameCollectionKeepsValid(r1.cat, id, toNs);
    UndoesCompose(c.entries, r1.cat.entries, r2.cat.entries, r1.hooks, r2.hooks);
    AbortRestores(c, r2.cat, r1.hooks + r2.hooks);
  }

  /** Dropping and then aborting puts the very same entry back under the same handle. */
  lemma DropThenAbort(c: Catalog, id: RecordId)
    requires Valid(c)
    requires id in c.entries
    ensures var r := DropCollection(c, id);
      && id !in r.cat.entries
      && var a := Abort(c, r.cat, r.hooks);
      && id in a.entries && a.entries[id] == c.entries[id]
      && a == c
  {
    var r := DropCollection(c, id);
    DropCollectionKeepsValid(c, id);
    AbortRestores(c, r.cat, r.hooks);
  }

  /** A successful rename keeps the handle, the collection ident and the index
      idents; only the namespace changes. */
  lemma RenamePreservesIdents(c: Catalog, id: RecordId, toNs: TenantNamespace)
    requires Valid(c)
    requires id in c.entries
    requires forall other | other in c.entries && other != id :: c.entries[other].ns != toNs
    ensures var r := RenameCollection(c, id, toNs);
      && r.result.Success?
      && Valid(r.cat)
      && id in r.cat.entries
      && GetCollectionIdent(r.cat, id) == GetCollectionIdent(c, id)
      && GetIndexIdents(r.cat, id) == GetIndexIdents(c, id)
      && GetEntry(r.cat, id).ns == toNs
      && KnownIdents(r.cat) == KnownIdents(c)
  {
    RenameCollectionKeepsValid(c, id, toNs);
  }

  /** The first index built on a collection without indexes: one index,
      under the requested name, not yet ready, not multikey, with an ident
      distinct from the collection's. */
  lemma FirstIndex(c: Catalog, id: RecordId, options: CollectionOptions, spec: IndexSpec,
                   engine: EngineCall -> Status)
    requires Valid(c)
    requires id in c.entries && c.metadata[id].indexes == []
    requires forall call :: engine(call) == OK
    ensures var r := CreateIndex(c, id, options, spec, engine);
      && r.result.Success?
      && Valid(r.cat)
      && id in r.cat.entries
      && GetTotalIndexCount(r.cat, id) == 1
      && IsIndexPresent(r.cat, id, spec.name)
      && !IsIndexReady(r.cat, id, spec.name)
      && !IsIndexMultikey(r.cat, id, spec.name)
      && GetIndexIdent(r.cat, id, spec.name) != GetCollectionIdent(r.cat, id)
  {
    assert FindIndexOffset(c.metadata[id], spec.name) == -1;
    var r := CreateIndex(c, id, options, spec, engine);
    CreateIndexKeepsValid(c, id, options, spec, engine);
    assert r.cat.metadata[id].indexes == [IndexMeta(spec.name, spec, r.calls[0].ident, false, false)];
    assert r.cat.metadata[id].indexes[0].name == spec.name;
  }

  /** createCollection followed by createIndex: the new collection starts
      without indexes, and the index built on it is its only index, present,
      not ready, not multikey, under its own ident. */
  lemma CreateThenIndex(c: Catalog, ns: TenantNamespace, options: CollectionOptions, id: RecordId,
                        spec: IndexSpec, engine: EngineCall -> Status)
    requires Valid(c)
    requires id !in c.entries && id !in c.featureDocs
    requires !NamespaceInUse(c, ns)
    requires forall call :: engine(call) == OK
    ensures var r1 := CreateCollection(c, ns, options, Success(id), engine);
      && r1.result == Success(id)
      && Valid(r1.cat)
      && id in r1.cat.entries
      && r1.cat.metadata[id].indexes == []
      && GetTotalIndexCount(r1.cat, id) == 0
      && var r2 := CreateIndex(r1.cat, id, options, spec, engine);
      && r2.result.Success?
      && Valid(r2.cat)
      && id in r2.cat.entries
      && GetTotalIndexCount(r2.cat, id) == 1
      && IsIndexPresent(r2.cat, id, spec.name)
      && !IsIndexReady(r2.cat, id, spec.name)
      && !IsIndexMultikey(r2.cat, id, spec.name)
      && GetIndexIdent(r2.cat, id, spec.name) != GetCollectionIdent(r2.cat, id)
  {
    CreateCollectionKeepsValid(c, ns, options, Success(id), engine);
    var r1 := CreateCollection(c, ns, options, Success(id), engine);
    FirstIndex(r1.cat, id, options, spec, engine);
  }

  /** Every ident the catalog hands out in sequence is new: a collection ident
      from createCollection, then an internal ident, then a resumable-build
      ident are pairwise distinct and none was known before. */
  lemma IssuedIdentsPairwiseDistinct(c: Catalog, ns: TenantNamespace, options: CollectionOptions, id: RecordId,
                                     engine: EngineCall -> Status)
    requires Valid(c)
    requires id !in c.entries && id !in c.featureDocs
    requires !NamespaceInUse(c, ns)
    ensures var r1 := CreateCollection(c, ns, options, Success(id), engine);
      Valid(r1.cat) &&
      var x1 := r1.cat.entries[id].ident;
      var r2 := NewInternalIdent(r1.cat);
      var r3 := NewInternalResumableIndexBuildIdent(r2.cat);
      && x1 !in KnownIdents(c) && r2.ident !in KnownIdents(c) && r3.ident !in KnownIdents(c)
      && x1 != r2.ident && x1 != r3.ident && r2.ident != r3.ident
  {
    var r1 := CreateCollection(c, ns, options, Success(id), engine);
    CreateCollectionKeepsValid(c, ns, options, Success(id), engine);
    KnownOfInsert(c.metadata, id, r1.cat.metadata[id]);
    assert r1.cat.metadata == c.metadata[id := r1.cat.metadata[id]];
    assert r1.cat.entries[id].ident in KnownIdents(r1.cat);
    var r2 := NewInternalIdent(r1.cat);
    assert r2.ident !in KnownIdents(c);
    SuccessiveIssuesDiffer(r1.cat.alloc, InternalIdentPrefix, InternalIdentPrefix + ResumableIndexBuildIdentStem);
  }

  /** An ident once seen stays seen: whatever an orphan claim does to the
      token, the next internal ident is not an ident seen before it. */
  lemma OrphanClaimThenInternalIsNew(c: Catalog, ident: string, insert: StatusWith<RecordId>,
                                     tokens: seq<string>, x: string)
    requires Valid(c)
    requires insert.Success? ==> insert.value !in c.entries && insert.value !in c.featureDocs
    requires TokensCover(c, {ident}, tokens)
    requires x in c.alloc.seen
    ensures var r := NewOrphanedIdent(c, ident, insert, tokens);
      && Valid(r.cat)
      && x in r.cat.alloc.seen
      && NewInternalIdent(r.cat).ident != x
  {
    NewOrphanedIdentKeepsValid(c, ident, insert, tokens);
  }

  /** A collection ident survives in the record of seen idents after the
      collection is dropped, though the catalog no longer knows it. */
  lemma DroppedIdentStaysIssued(c: Catalog, ns: TenantNamespace, options: CollectionOptions, id: RecordId,
                                engine: EngineCall -> Status)
    requires Valid(c)
    requires id !in c.entries && id !in c.featureDocs
    requires !NamespaceInUse(c, ns)
    ensures var r1 := CreateCollection(c, ns, options, Success(id), engine);
      Valid(r1.cat) && id in r1.cat.entries &&
      var r2 := DropCollection(r1.cat, id);
      && Valid(r2.cat)
      && r1.cat.entries[id].ident !in KnownIdents(r2.cat)
      && r1.cat.entries[id].ident in r2.cat.alloc.seen
  {
    var r1 := CreateCollection(c, ns, options, Success(id), engine);
    CreateCollectionKeepsValid(c, ns, options, Success(id), engine);
    var md := r1.cat.metadata[id];
    assert r1.cat.metadata == c.metadata[id := md];
    var r2 := DropCollection(r1.cat, id);
    DropCollectionKeepsValid(r1.cat, id);
    assert r2.cat.metadata == r1.cat.metadata - {id};
    InsertThenRemove(c.metadata, id, md);
    assert KnownIdents(r2.cat) == KnownIdents(c);
  }

  /** Drop, then an orphan claim that may re-draw the token, then abort: the
      dropped entry comes back, the catalog is valid again, and so the next
      ident issued is not the restored one. */
  lemma DropOrphanThenAbort(c: Catalog, id: RecordId, ident: string, insert: StatusWith<RecordId>,
                            tokens: seq<string>)
    requires Valid(c)
    requires id in c.entries
    requires insert.Success? ==> insert.value !in c.entries && insert.value !in c.featureDocs
    requires TokensCover(DropCollection(c, id).cat, {ident}, tokens)
    ensures var r1 := DropCollection(c, id);
      Valid(r1.cat) &&
      var r2 := NewOrphanedIdent(r1.cat, ident, insert, tokens);
      var a := Abort(c, r2.cat, r1.hooks + r2.hooks);
      && a == c.(alloc := r2.cat.alloc)
      && Valid(a)
  {
    var r1 := DropCollection(c, id);
    DropCollectionKeepsValid(c, id);
    var r2 := NewOrphanedIdent(r1.cat, ident, insert, tokens);
    NewOrphanedIdentKeepsValid(r1.cat, ident, insert, tokens);
    UndoesCompose(c.entries, r1.cat.entries, r2.cat.entries, r1.hooks, r2.hooks);
    AbortRestores(c, r2.cat, r1.hooks + r2.hooks);
  }
}

=== FILE: rollback.dfy ===
/** Transaction rollback of the entry cache. Each cache change registers an
    undo action with the enclosing transaction; on abort the actions run in
    reverse registration order, while the storage engine itself restores the
    durable documents. `RemoveEntry` is the AddIdentChange rollback hook. */
module Rollback {
  import opened CatalogModel
  import opened IdentAllocator

  datatype Undo =
    | RemoveEntry(id: RecordId)
    | RestoreNamespace(id: RecordId, ns: TenantNamespace)
    | ReinsertEntry(id: RecordId, entry: Entry)

  /** One undo action on the entry cache. RemoveEntry (AddIdentChange)
      takes back an added entry, RestoreNamespace a rename, ReinsertEntry a
      drop; each touches only its own handle. */
  function ApplyUndo(u: Undo, m: map<RecordId, Entry>): (m': map<RecordId, Entry>)
    ensures u.RemoveEntry? ==> u.id !in m'
    ensures u.ReinsertEntry? ==> u.id in m' && m'[u.id] == u.entry
    ensures u.RestoreNamespace? ==> m'.Keys == m.Keys && (u.id in m ==> m'[u.id] == m[u.id].(ns := u.ns))
    ensures forall k | k in m && k != u.id :: k in m' && m'[k] == m[k]
    ensures forall k | k in m' && k != u.id :: k in m
  {
    match u
    case RemoveEntry(id) => m - {id}
    case RestoreNamespace(id, ns) => if id in m then m[id := m[id].(ns := ns)] else m
    case ReinsertEntry(id, e) => m[id := e]
  }

  /** The AddIdentChange hook takes back exactly the entry added under a new handle. */
  lemma RemoveEntryUndoesAdd(m: map<RecordId, Entry>, id: RecordId, e: Entry)
    requires id !in m
    ensures ApplyUndo(RemoveEntry(id), m[id := e]) == m
  {
  }

  /** Runs the registered undo actions, the most recent first. */
  function RollbackEntries(m: map<RecordId, Entry>, hooks: seq<Undo>): map<RecordId, Entry>
    decreases |hooks|
  {
    if |hooks| == 0 then m
    else RollbackEntries(ApplyUndo(hooks[|hooks| - 1], m), hooks[..|hooks| - 1])
  }

  /** The hooks `hooks` take the cache `after` back to `before`. */
  predicate Undoes(before: map<RecordId, Entry>, after: map<RecordId, Entry>, hooks: seq<Undo>) {
    RollbackEntries(after, hooks) == before
  }

  lemma RollbackEntries0(m: map<RecordId, Entry>)
    ensures Undoes(m, m, [])
  {
  }

  lemma RollbackOne(m: map<RecordId, Entry>, u: Undo)
    ensures RollbackEntries(m, [u]) == ApplyUndo(u, m)
  {
    assert [u][..0] == [];
  }

  /** Rolling back two batches of hooks is rolling back the later batch, then the earlier. */
  lemma {:induction false} RollbackAppend(m: map<RecordId, Entry>, h1: seq<Undo>, h2: seq<Undo>)
    ensures RollbackEntries(m, h1 + h2) == RollbackEntries(RollbackEntries(m, h2), h1)
    decreases |h2|
  {
    if |h2| == 0 {
      assert h1 + h2 == h1;
    } else {
      var h := h1 + h2;
      assert h[|h| - 1] == h2[|h2| - 1];
      assert h[..|h| - 1] == h1 + h2[..|h2| - 1];
      RollbackAppend(ApplyUndo(h2[|h2| - 1], m), h1, h2[..|h2| - 1]);
    }
  }

  /** Hooks registered by consecutive operations compose: aborting after both
      restores the cache from before the first. */
  lemma UndoesCompose(m0: map<RecordId, Entry>, m1: map<RecordId, Entry>, m2: map<RecordId, Entry>,
                      h1: seq<Undo>, h2: seq<Undo>)
    requires Undoes(m0, m1, h1)
    requires Undoes(m1, m2, h2)
    ensures Undoes(m0, m2, h1 + h2)
  {
    RollbackAppend(m2, h1, h2);
  }

  /** Abort of a transaction that began at `start` and reached `cur` having
      registered `hooks`: the durable documents come back from the storage
      engine, the cache from the hooks. The allocator is not transactional. */
  function Abort(start: Catalog, cur: Catalog, hooks: seq<Undo>): (r: Catalog)
    ensures r.metadata == start.metadata && r.featureDocs == start.featureDocs
    ensures r.alloc == cur.alloc
    ensures Undoes(start.entries, cur.entries, hooks) ==> r.entries == start.entries
  {
    cur.(entries := RollbackEntries(cur.entries, hooks),
         metadata := start.metadata,
         featureDocs := start.featureDocs)
  }

  /** When the hooks undo the cache changes, abort gives back the catalog as
      it was, except that the allocator may have moved on; and the catalog is
      valid again. This holds even when the token was re-drawn inside the
      transaction: every restored ident was seen before it began, so the new
      token avoids it. */
  lemma AbortRestores(start: Catalog, cur: Catalog, hooks: seq<Undo>)
    requires Valid(start)
    requires Undoes(start.entries, cur.entries, hooks)
    requires start.alloc.seen <= cur.alloc.seen
    requires Sound(KnownIdents(cur), cur.alloc)
    requires cur.directoryPerDb == start.directoryPerDb && cur.directoryForIndexes == start.directoryForIndexes
    ensures Abort(start, cur, hooks) == start.(alloc := cur.alloc)
    ensures Valid(Abort(start, cur, hooks))
  {
    var r := Abort(start, cur, hooks);
    assert KnownIdents(r) == KnownIdents(start);
    forall x | x in KnownIdents(r) + cur.alloc.seen && EndsWith(x, cur.alloc.rand)
      ensures IssuedCounter(x, cur.alloc.rand).Some? && IssuedCounter(x, cur.alloc.rand).value < cur.alloc.next
    {
      assert x in KnownIdents(cur) + cur.alloc.seen;
    }
  }
}
